=== FILE: README.md ===
# Vehicle oil-change log: a verified model of the parsing core

The program keeps a plain-text log of a vehicle's oil changes:

- the first non-blank line names the vehicle;
- "Month Year" heading lines date the entries below them;
- each entry is a line such as `51234 miles : Oil and Filter change (5W-20) (XG9688)`, which may carry on into one further line.

This project models the pure logic that the program's window class wraps:

- **The log parser.** It reads the text as `readlines()` would, finds the vehicle line, and scans the remaining lines with a date cursor. A mileage line absorbs at most one following line. A record is kept only when the merged description contains the "oil and filter change" phrase. The oil type and the filter type are taken from parenthesised groups. The summary the new-entry dialog starts from comes from the last record.
- **The mileage estimator.** Records whose date parses as `%B %Y` become (day number, mileage) points. The points are stable-sorted by day. The line through the first and last sorted points is extended to "today" and truncated toward zero.
- **The save action.** The typed mileage must be a digit string that is not below the last mileage. The single line appended to the log is built from the four fields. A theorem states what parsing the log gives back once that line is appended.

## How it is organised

| module | holds |
|---|---|
| `Wrappers` | `Option` and `Result` |
| `Text` | ASCII `isspace`, `strip()`, `isdigit()`, `int()` of a digit string, `lower()` |
| `Calendar` | the `Month YYYY` pattern, `strptime('%B %Y')`, and a proleptic Gregorian day count for the first of a month |
| `Patterns` | the mileage-line regex, the phrase search, oil codes, parenthesised groups, the filter test and filter selection |
| `Lines` | `readlines()` on a whole text and its behaviour under appending |
| `Parser` | the scan with its date cursor and lookahead, a line-by-line reference definition, the vehicle line and the summary |
| `Provenance` | the parsed records as what each line yields under the heading above it |
| `Estimator` | the dated points, the stable sort, the endpoints and the truncated extrapolation |
| `Entry` | validation and formatting of the new line, and the save-then-parse theorems |

Each definition that follows the code has a partner definition or property proved about it:

- The scan, which skips the line it has absorbed, is proved equal to a reference that judges every line on its own (`Parser.ScanIsLineByLine`). That reference is in turn proved to be "what each line yields under the heading most recently above it" (`Provenance.ReferenceIsYields`).
- Each hand-written matcher has a converse that says which texts it accepts:
  - the heading and `%B %Y` matcher (`Calendar.HeadingMatched`);
  - the mileage-line matcher, for any spacing and case (`Patterns.MileageLineMatched`), whose own contract is completed by `Patterns.MileageMatchLayout` so that the two together give the pattern in both directions;
  - the phrase search (`Patterns.PhraseMatched`);
  - the oil-code matcher (`Patterns.OilAtCode`).

  The filter test is proved equal to its regular expression read literally (`Patterns.FilterCodeIsRegex`).
- The sort is proved to be a sorted permutation whose ends are the first earliest point and the last latest point.
- The save action is proved to round-trip through the parser (`Entry.SaveThenParse`, `Entry.SaveThenParseCodes`).

Three behaviours of the code worth noting:

- The estimate is converted with `int()`, which truncates toward zero, not floor (`Estimator.TruncDiv`).
- The filter test is `re.match(r'[A-Z]+[\dA-Z]+', c)`. This is case-sensitive and anchored at the start of the group, so it holds exactly when the group starts with an upper-case letter followed by an upper-case letter or a digit.
- Day counts come from the real Gregorian calendar, leap years included: January 2020 to January 2021 is 366 days.

## Model

| member | source | states |
|---|---|---|
| Text.Strip | vehicle_logging.py:110 | `strip()` leaves no whitespace at either end of its result |
| Text.StripInfix | vehicle_logging.py:119 | what `strip()` removes is whitespace, taken only from the two ends of the line |
| Text.StripEmptyIffAllSpace | vehicle_logging.py:119-123 | a line is skipped as blank exactly when every character of it is whitespace |
| Text.StripStripped | vehicle_logging.py:307-310 | stripping a field that has no outer whitespace gives it back unchanged |
| Text.StripFinalNewline | vehicle_logging.py:326 | stripping a line read back from the file removes exactly its trailing newline |
| Text.LowerIsLowerCase | vehicle_logging.py:153 | `lower()` leaves no upper-case letter and changes exactly the upper-case ones, so lower-casing twice is lower-casing once |
| Calendar.MatchMonthYear | vehicle_logging.py:97 | a heading match is a month name (exactly, or equal to it once lower-cased for `strptime`), then whitespace, then exactly four digits that give the year (0-9999) |
| Calendar.HeadingMatched | vehicle_logging.py:97 | conversely, a month name (exactly, or in any case for `strptime`), then at least one whitespace character, then four digits is matched as that month and year |
| Calendar.DateLineAccepted | vehicle_logging.py:97 | every line made of a month name, whitespace and four digits is a heading line, of that month and year |
| Calendar.MonthYearAccepted | vehicle_logging.py:226-229 | `strptime('%B %Y')` reads a month name in any case, whitespace and four digits as that month and year, and refuses it exactly when the year is 0 |
| Calendar.MonthNumber | vehicle_logging.py:97 | the month number found is 1-12, and the text is that month's name, exactly or ignoring case |
| Calendar.DateLineStartsUpper | vehicle_logging.py:97 | every heading line starts with an upper-case letter |
| Calendar.ParseMonthYear | vehicle_logging.py:226 | a date that `strptime('%B %Y')` accepts has a year of at least 1 and a month from 1 to 12 |
| Calendar.MonthFromIgnoringCase | vehicle_logging.py:226 | a case-insensitive lookup of a month name finds that month and no other |
| Calendar.MonthNamesDistinct | vehicle_logging.py:226 | no two month names are equal once lower-cased |
| Calendar.DateLineParses | vehicle_logging.py:222-229 | a heading line is accepted by `strptime` exactly when its year is not 0, and then as the same month and year |
| Calendar.DayNumberStep | vehicle_logging.py:241 | the first of the next month is as many days later as the month has days, leap years included |
| Calendar.DayNumberIncreasing | vehicle_logging.py:241 | a later month always has a larger day number |
| Calendar.DayNumberInjective | vehicle_logging.py:241-247 | two months are 0 days apart exactly when they are the same month |
| Calendar.LeapCount | vehicle_logging.py:241 | the leap-day counts in the day number step by one exactly in a leap year |
| Patterns.MatchMileage | vehicle_logging.py:98 | a mileage match captures the leading digit run as group 1 and the end of the line as group 2, with no leading whitespace and no newline |
| Patterns.MileageMatchLayout | vehicle_logging.py:98 | between the two groups of a match lie optional whitespace, `miles` in any case, optional whitespace, a colon and optional whitespace; with MileageLineMatched this is the pattern in both directions |
| Patterns.MileageLineMatched | vehicle_logging.py:98 | conversely, digits, optional whitespace, `miles` in any case, optional whitespace, a colon, optional whitespace and a one-line description are matched, with the digits and the description as the two groups |
| Patterns.PhraseMatched | vehicle_logging.py:99 | conversely, the words oil, and, filter and change, each in any case, with only whitespace (or nothing) between them, are found wherever they stand in the description |
| Patterns.MileageLineRoundTrip | vehicle_logging.py:326 | the mileage pattern reads back the digits and description that the save format wrote |
| Patterns.MileageLineIsNotDateLine | vehicle_logging.py:125-131 | no line is both a heading and a mileage line, so testing the heading first does not shadow a mileage line |
| Patterns.PhraseKeptByAppend | vehicle_logging.py:136-144 | text merged from the next line never removes a phrase already present |
| Patterns.OilAt | vehicle_logging.py:100 | a match at `i` is a parenthesised `\dW-\d+` code (W in either case) starting at `i` |
| Patterns.OilAtCode | vehicle_logging.py:100 | every parenthesised oil code is matched where it stands, and the match is exactly that code |
| Patterns.FindOil | vehicle_logging.py:146 | the search returns the leftmost position holding an oil code, or none when no position holds one |
| Patterns.OilTypeOf | vehicle_logging.py:146-147 | the oil type is NA exactly when no oil code occurs; otherwise it is the first oil code in the description |
| Patterns.OilTypeFirstCode | vehicle_logging.py:146-147 | an oil code with no opening parenthesis before it is the oil type |
| Patterns.GroupAt | vehicle_logging.py:150 | a group at `i` is a non-empty, parenthesis-free text between `(` at `i` and the next `)` |
| Patterns.ParenGroupsFree | vehicle_logging.py:150 | every group `findall` returns is non-empty and free of parentheses |
| Patterns.SkipThenGroup | vehicle_logging.py:150 | after a stretch with no `(`, the next group found is the one at the first `(`, and the search resumes after its `)` |
| Patterns.FilterCodeIsRegex | vehicle_logging.py:155 | the two-character filter test holds exactly when the regex `[A-Z]+[\dA-Z]+` matches at the start |
| Patterns.FirstCandidate | vehicle_logging.py:152-157 | the loop stops at the first group that is not the oil type and passes the filter test, and every group before it fails |
| Patterns.SelectFilter | vehicle_logging.py:151-157 | the filter type is the first accepted group, stripped, with every earlier group rejected; it is NA only when no group is accepted |
| Patterns.SelectFilterCodes | vehicle_logging.py:152-157 | with groups `[oil code, filter code]` the loop skips the oil code and returns the filter code |
| Lines.ReadLines | vehicle_logging.py:105 | `readlines()` splits the text into non-empty lines that concatenate back to it, each ending in a newline except possibly the last |
| Lines.ReadLinesAppend | vehicle_logging.py:105 | for text ending in a newline, the lines of text + more are the lines of the text followed by the lines of the addition |
| Lines.ReadOneLine | vehicle_logging.py:105 | a string with a single newline, at its end, is read as one line |
| Lines.ReadLinesAppendLine | vehicle_logging.py:105 | appending one complete line to text that ends in a newline adds exactly that line to what `readlines()` returns |
| Parser.FirstNonBlank | vehicle_logging.py:108-114 | the vehicle search finds the first line that is not blank after stripping, with every line before it blank; it finds nothing only when all lines are blank |
| Parser.FirstNonBlankAppend | vehicle_logging.py:108-114 | appending a line never moves the vehicle line |
| Parser.ParseStructure | vehicle_logging.py:108-116 | the vehicle is empty exactly when every line is blank, and then there are no records; otherwise it is the first non-blank line, and the records are those of the following lines only |
| Parser.VehicleBlankIff | vehicle_logging.py:108-116 | the identifier is empty exactly when all lines are blank, and then nothing is scanned |
| Parser.VehicleFound | vehicle_logging.py:108-116 | a non-empty identifier is a first non-blank line, and scanning resumes right after it |
| Parser.ParseLinesByReference | vehicle_logging.py:108-166 | with vehicle line `k`, the identifier is that line stripped and the records are the line-by-line records of the lines after it |
| Parser.ScanIsLineByLine | vehicle_logging.py:118-166 | the cursor-and-skip loop yields exactly the line-by-line records, and it ends holding the last heading |
| Parser.AbsorbedLineInert | vehicle_logging.py:136-141 | a line the lookahead absorbs would have yielded no record and would not have moved the cursor |
| Parser.KeptLineIgnored | vehicle_logging.py:137-140 | a heading or mileage line after a mileage line adds nothing to its description |
| Parser.LastHeadingConcat | vehicle_logging.py:124-128 | the cursor after two runs of lines is the cursor of the second run, started from the cursor of the first |
| Parser.LastHeadingFirstLine | vehicle_logging.py:124-128 | the cursor is moved line by line: a heading line replaces it, and any other line leaves it |
| Parser.LastHeadingIsHeading | vehicle_logging.py:94 | the cursor only ever holds its starting value (NA) or a heading line |
| Parser.ReferenceWellFormed | vehicle_logging.py:130-165 | every record's mileage is a digit string, and its date is the starting cursor or a heading line |
| Parser.ParseLinesWellFormed | vehicle_logging.py:160-179 | every parsed record is well formed, and the summary's last mileage is a digit string |
| Parser.ParseLog | vehicle_logging.py:90-179 | the last mileage handed to the save dialog is always a digit string ("0" for a log without records) |
| Parser.ReferenceAppend | vehicle_logging.py:118-166 | appending a mileage line keeps every earlier record and adds at most the record that line yields, dated by the last heading above it |
| Parser.ParseLinesAppend | vehicle_logging.py:118-166 | appending a mileage line to a log that names its vehicle keeps the vehicle and every record, and adds at most the new line's record under the final cursor |
| Parser.FinalHeadingAfterVehicle | vehicle_logging.py:94-128 | the body loop's date cursor, started at NA and run over every line after the vehicle line, ends as the last heading among those lines, or NA when there is none |
| Provenance.ReferenceIsYields | vehicle_logging.py:118-166 | the records are, in line order, what each line yields on its own under the heading most recently above it |
| Provenance.ParsedRecordsAreYields | vehicle_logging.py:118-166 | the parsed records are what the lines after the vehicle line yield one by one, with the cursor starting at NA |
| Provenance.ParsedRecordMembers | vehicle_logging.py:143-165 | a record is parsed exactly when some line after the vehicle line yields it |
| Provenance.SomesMembers | vehicle_logging.py:160-165 | a record is among those collected exactly when some line yields it |
| Estimator.DatedMembers | vehicle_logging.py:221-230 | a point is collected exactly when some record gives it |
| Estimator.DatedInOrder | vehicle_logging.py:221-230 | the points follow the records' order and multiplicity: two runs of records give the first run's points then the second's, and one record gives its own point or none |
| Estimator.DatedKeepsAll | vehicle_logging.py:225-230 | no record is skipped exactly when every record's date parses |
| Estimator.Insert | vehicle_logging.py:238 | insertion adds exactly the one point to the multiset of points |
| Estimator.InsertSorted | vehicle_logging.py:238 | insertion keeps a day-sorted sequence sorted |
| Estimator.SortByDayPermutes | vehicle_logging.py:238 | the sort is a permutation of the points |
| Estimator.SortByDaySorted | vehicle_logging.py:238 | the sort orders the points by day |
| Estimator.FirstMinIndexIsFirstMin | vehicle_logging.py:238-241 | the position found holds the earliest day, and every point before it is strictly later |
| Estimator.LastMaxIndexIsLastMax | vehicle_logging.py:238-242 | the position found holds the latest day, and every point after it is strictly earlier |
| Estimator.SortFirst | vehicle_logging.py:238-241 | the stable sort starts with the first of the earliest points |
| Estimator.SortLast | vehicle_logging.py:238-242 | the stable sort ends with the last of the latest points |
| Estimator.SameDayIffEndsMeet | vehicle_logging.py:241-244 | all points fall on one day exactly when the earliest and the latest do |
| Estimator.EndpointsCases | vehicle_logging.py:232-247 | there is no span exactly when there are fewer than two points or all fall on one day; otherwise the span runs from the first earliest to the last latest point |
| Estimator.TruncDiv | vehicle_logging.py:259 | `int()` of a quotient rounds toward zero, from above for negative values |
| Estimator.TruncDivNegate | vehicle_logging.py:259 | truncation is symmetric about zero, unlike floor division |
| Estimator.EstimateCases | vehicle_logging.py:210-259 | the estimate is NA exactly when there are fewer than two records, fewer than two dated points, or all points in one month; otherwise it is the truncated extrapolation from the first earliest to the last latest point |
| Estimator.ExtrapolateAtLast | vehicle_logging.py:250-259 | on the day of the last entry the estimate is its mileage |
| Estimator.ExtrapolateAtFirst | vehicle_logging.py:250-259 | extended back to the first entry's day, the line gives its mileage |
| Estimator.ExtrapolateNotBelowLast | vehicle_logging.py:250-259 | when mileage has not gone down and today is not before the last entry, the estimate is at least the last mileage |
| Entry.SavedLine | vehicle_logging.py:313-326 | an accepted mileage is a digit string not below the last; the result is a single line ending in a newline, which the mileage pattern reads back as the typed digits and the saved description |
| Entry.EntryLineShape | vehicle_logging.py:326 | the saved line is one line, and the mileage pattern reads back its digits and description |
| Entry.DescriptionHasPhrase | vehicle_logging.py:326 | the saved description passes the oil-and-filter-change gate |
| Entry.DescriptionGroups | vehicle_logging.py:326 | the groups of the saved description are the two fields, when both are non-empty and free of parentheses |
| Entry.DescriptionOil | vehicle_logging.py:326 | an oil code typed in the oil field is the oil type read back |
| Entry.DescriptionFilter | vehicle_logging.py:326 | with an oil code and a stripped, parenthesis-free filter code, the filter type read back is the filter field |
| Entry.EntryRecord | vehicle_logging.py:326 | on its own, the saved line yields the record of the typed mileage and the types read from its description |
| Entry.AppendEntryLine | vehicle_logging.py:326 | appending the saved line to lines that name a vehicle keeps the vehicle and all records, adds the entry's record under the final cursor, and makes it the summary's mileage |
| Entry.AppendEntryCodes | vehicle_logging.py:326 | with an oil code and a filter code typed, the summary after the append is exactly the typed fields under the final cursor |
| Entry.SaveThenParse | vehicle_logging.py:306-326 | saving to a log that ends in a newline and names its vehicle keeps the vehicle and every record, appends one record for the new mileage dated by the log's last heading, and never lowers the last mileage |
| Entry.SaveThenParseCodes | vehicle_logging.py:306-326 | when the typed oil and filter fields are an oil code and a filter code, the summary after saving is exactly what was typed, under the log's last heading |

## Left out

- The PyQt window, the dialogs, the table and the labels are presentation only and are not modelled.
- Opening and reading the file, the append-mode write and the `except` handlers are not modelled. The log is a string, `readlines()` is `Lines.ReadLines`, and the append is string concatenation.
- Universal-newline translation is not modelled: a `\r\n` in the text stays in the line, where `strip()` removes it.
- Characters are ASCII. The model does not cover Unicode whitespace in `strip()` and `\s`, Unicode digits in `isdigit()` and `\d`, or case folding outside A-Z.
- `datetime.today()` becomes the integer day-number parameter `today`. The time of day does not matter, because dates in the log are the first of a month.
- `strptime` is modelled only for `%B %Y` with English month names, case-insensitive. Year 0 is rejected as `datetime` rejects it. Any other text, including NA, fails to parse.
- Estimator.Extrapolate: the rate `total_mileage / total_days` is a float in the program. The model uses exact rational arithmetic and then truncates. IEEE rounding is not modelled, including the loss of whole miles once mileages or their products with day counts pass 2^53.
- Estimator.EstimateCases: integers are unbounded, so an absurdly long mileage always gives a number. In the program, `int()` refuses digit strings longer than 4300 digits (CPython 3.11 and later) with a ValueError at line 223, outside the `try`. `total_mileage / total_days` at line 250 raises OverflowError once the quotient leaves float range. Above 2^53 the float estimate loses precision.
- The unused `filter_type_pattern` on line 101 is not modelled, because nothing reads it.
- The date field of the save dialog is read but never written to the file, so the model does not take it.
- Entry.SavedLine: integers are unbounded, so any digit string is accepted as a mileage. In the program, `int()` at vehicle_logging.py:318-319 raises ValueError for a typed or last mileage longer than 4300 digits (CPython 3.11 and later). That call is outside the `try` at line 329, so the entry is not saved, where the model returns `Success`. The same holds for Entry.SaveThenParse and Entry.SaveThenParseCodes, which start from a successful save.
- Entry.SaveThenParse: stated only for a log that ends in a newline. Otherwise the saved text joins the last line of the log and the effect depends on that line.
- Entry.SaveThenParse: stated only for a log that names its vehicle. In a blank log the saved line itself becomes the vehicle line.
- Entry.SaveThenParseCodes: stated only when the oil field is an oil code and the filter field a filter code without parentheses. Other text gives the types the description's own groups decide. SaveThenParse states what the record then holds.
- Entry.SaveThenParse: stated only when the stripped oil and filter fields hold no newline, since they come from single-line `QLineEdit` widgets (vehicle_logging.py:286-287). A newline in a field would make the saved text two lines. The second line could then be read as a further mileage line, and the log's last mileage could drop below the one just checked.
- Entry.SaveThenParseCodes: stated only when the stripped filter field holds no newline, for the same reason as SaveThenParse. An oil code never holds one.
- Estimator.SortByDay: stability is stated through the two ends of the sort (`SortFirst`, `SortLast`), which are all the estimate uses. It is not stated for every pair of equal days.

=== FILE: calendar.dfy ===
/** "Month Year" strings and the proleptic Gregorian day count used to compare
    and subtract them, as `datetime.strptime(s, '%B %Y')` and
    `(d1 - d2).days` do for dates on the first of a month. */
module Calendar {
  import opened Wrappers
  import opened Text

  /** A calendar month; `month` is 1-based. */
  datatype MonthYear = MonthYear(year: int, month: int)

  predicate Valid(d: MonthYear) {
    d.year >= 1 && 1 <= d.month <= 12
  }

  const MonthNames: seq<string> := ["January", "February", "March", "April", "May", "June",
    "July", "August", "September", "October", "November", "December"]

  /** Index of the first whitespace character at or after `i`, or `|s|`. */
  function WordEnd(s: string, i: nat): (r: nat)
    requires i <= |s|
    ensures i <= r <= |s|
    ensures r < |s| ==> IsSpace(s[r])
    ensures forall k :: i <= k < r ==> !IsSpace(s[k])
    decreases |s| - i
  {
    if i == |s| || IsSpace(s[i]) then i else WordEnd(s, i + 1)
  }

  /** The 1-based number of the month called `name`, compared exactly or, when
      `ignoreCase`, after lower-casing both sides. */
  function MonthNumber(name: string, ignoreCase: bool): (r: Option<int>)
    ensures r.Some? ==> 1 <= r.value <= 12
    ensures r.Some? && !ignoreCase ==> name == MonthNames[r.value - 1]
    ensures r.Some? && ignoreCase ==> Lower(name) == Lower(MonthNames[r.value - 1])
  {
    MonthFrom(name, ignoreCase, 0)
  }

  function MonthFrom(name: string, ignoreCase: bool, k: nat): (r: Option<int>)
    requires k <= 12
    ensures r.Some? ==> k < r.value <= 12
    ensures r.Some? && !ignoreCase ==> name == MonthNames[r.value - 1]
    ensures r.Some? && ignoreCase ==> Lower(name) == Lower(MonthNames[r.value - 1])
    ensures r.None? && !ignoreCase ==> forall m :: k <= m < 12 ==> name != MonthNames[m]
    decreases 12 - k
  {
    if k == 12 then None
    else if (if ignoreCase then Lower(name) == Lower(MonthNames[k]) else name == MonthNames[k]) then Some(k + 1)
    else MonthFrom(name, ignoreCase, k + 1)
  }

  /** `<MonthName>\s+\d{4}` matched against the whole of `s`: the regex on
      heading lines (exact case) and the `strptime` format (any case). The
      month name is the text before the first whitespace, since no name
      contains whitespace and one must be followed by some. */
  function MatchMonthYear(s: string, ignoreCase: bool): (r: Option<MonthYear>)
    ensures r.Some? ==> 1 <= r.value.month <= 12 && 0 <= r.value.year <= 9999
    ensures r.Some? ==>
      var w := |MonthNames[r.value.month - 1]|;
      && w + 5 <= |s|
      && (ignoreCase || s[..w] == MonthNames[r.value.month - 1])
      && Lower(s[..w]) == Lower(MonthNames[r.value.month - 1])
      && AllSpace(s[w..|s| - 4]) && IsNumeral(s[|s| - 4..])
      && r.value.year == NumeralValue(s[|s| - 4..])
  {
    var w := WordEnd(s, 0);
    var tail := s[w..];
    match MonthNumber(s[..w], ignoreCase)
    case None => None
    case Some(m) =>
      if |tail| >= 5 && AllSpace(tail[..|tail| - 4]) && IsNumeral(tail[|tail| - 4..]) then
        TailSlices(s, w);
        FourDigitsBound(s[|s| - 4..]);
        Some(MonthYear(NumeralValue(s[|s| - 4..]), m))
      else None
  }

  lemma {:induction false} TailSlices(s: string, w: nat)
    requires w + 4 <= |s|
    ensures s[w..][|s[w..]| - 4..] == s[|s| - 4..] && s[w..][..|s[w..]| - 4] == s[w..|s| - 4]
  {
  }

  lemma {:induction false} FourDigitsBound(d: string)
    requires IsNumeral(d) && |d| == 4
    ensures NumeralValue(d) <= 9999
  {
    NumeralBound(d);
    assert Pow10(4) == 10000;
  }

  lemma {:induction false} NumeralBound(s: string)
    requires AllDigits(s)
    ensures NumeralValue(s) < Pow10(|s|)
  {
    if |s| > 0 {
      NumeralBound(s[..|s| - 1]);
    }
  }

  function Pow10(n: nat): nat {
    if n == 0 then 1 else 10 * Pow10(n - 1)
  }

  /** A heading line: the exact-case regex of the log format. */
  predicate IsDateLine(s: string) {
    MatchMonthYear(s, false).Some?
  }

  /** `datetime.strptime(s, '%B %Y')` on English month names: the month name in
      any case, whitespace, four digits, nothing else, and a year `datetime`
      accepts (year 0 is rejected). */
  function ParseMonthYear(s: string): (r: Option<MonthYear>)
    ensures r.Some? ==> Valid(r.value)
  {
    match MatchMonthYear(s, true)
    case Some(d) => if d.year >= 1 then Some(d) else None
    case None => None
  }

  predicate IsLeap(y: int) {
    y % 4 == 0 && (y % 100 != 0 || y % 400 == 0)
  }

  function DaysInMonth(year: int, month: int): int
    requires 1 <= month <= 12
  {
    if month == 2 then (if IsLeap(year) then 29 else 28)
    else if month == 4 || month == 6 || month == 9 || month == 11 then 30
    else 31
  }

  /** Days from 1 January 1970 to the first day of the month (Howard Hinnant's
      days-from-civil with a year starting in March). */
  function DayNumber(d: MonthYear): int
    requires Valid(d)
  {
    var y := if d.month <= 2 then d.year - 1 else d.year;
    YearBase(y) + MarchOffset(MonthsSinceMarch(d.month))
  }

  function Next(d: MonthYear): (r: MonthYear)
    requires Valid(d)
    ensures Valid(r)
  {
    if d.month == 12 then MonthYear(d.year + 1, 1) else MonthYear(d.year, d.month + 1)
  }

  /** Position of a month on a single line of months. */
  function Ordinal(d: MonthYear): int {
    12 * d.year + d.month - 1
  }

  /** Days from 1 March to the first of the month `mp` months later. */
  function MarchOffset(mp: int): int {
    (153 * mp + 2) / 5
  }

  lemma {:induction false} DivStep4(y: int)
    ensures y / 4 - (y - 1) / 4 == if y % 4 == 0 then 1 else 0
  {
    var q, r := y / 4, y % 4;
    assert y == 4 * q + r && 0 <= r < 4;
    if r == 0 {
      assert y - 1 == 4 * (q - 1) + 3;
    } else {
      assert y - 1 == 4 * q + (r - 1);
    }
  }

  lemma {:induction false} DivStep100(y: int)
    ensures y / 100 - (y - 1) / 100 == if y % 100 == 0 then 1 else 0
  {
    var q, r := y / 100, y % 100;
    assert y == 100 * q + r && 0 <= r < 100;
    if r == 0 {
      assert y - 1 == 100 * (q - 1) + 99;
    } else {
      assert y - 1 == 100 * q + (r - 1);
    }
  }

  lemma {:induction false} DivStep400(y: int)
    ensures y / 400 - (y - 1) / 400 == if y % 400 == 0 then 1 else 0
  {
    var q, r := y / 400, y % 400;
    assert y == 400 * q + r && 0 <= r < 400;
    if r == 0 {
      assert y - 1 == 400 * (q - 1) + 399;
    } else {
      assert y - 1 == 400 * q + (r - 1);
    }
  }

  lemma {:induction false} LeapCount(y: int)
    ensures (y / 4 - (y - 1) / 4) - (y / 100 - (y - 1) / 100) + (y / 400 - (y - 1) / 400)
            == if IsLeap(y) then 1 else 0
  {
    DivStep4(y);
    DivStep100(y);
    DivStep400(y);
    if y % 100 == 0 {
      var q := y / 100;
      assert y == 4 * (25 * q);
    }
    if y % 400 == 0 {
      var q := y / 400;
      assert y == 100 * (4 * q);
    }
  }

  /** Months after March of a March-based year, for month numbers 1-12. */
  function MonthsSinceMarch(month: int): int {
    if month > 2 then month - 3 else month + 9
  }

  /** Outside February the length of a month is a constant of the month. */
  lemma {:induction false} OffsetStep(month: int)
    requires 1 <= month <= 12 && month != 2
    ensures MarchOffset(MonthsSinceMarch(month) + 1) - MarchOffset(MonthsSinceMarch(month))
            == DaysInMonth(0, month)
  {
    match month
    case 1 => assert MarchOffset(10) == 306 && MarchOffset(11) == 337;
    case 3 => assert MarchOffset(0) == 0 && MarchOffset(1) == 31;
    case 4 => assert MarchOffset(1) == 31 && MarchOffset(2) == 61;
    case 5 => assert MarchOffset(2) == 61 && MarchOffset(3) == 92;
    case 6 => assert MarchOffset(3) == 92 && MarchOffset(4) == 122;
    case 7 => assert MarchOffset(4) == 122 && MarchOffset(5) == 153;
    case 8 => assert MarchOffset(5) == 153 && MarchOffset(6) == 184;
    case 9 => assert MarchOffset(6) == 184 && MarchOffset(7) == 214;
    case 10 => assert MarchOffset(7) == 214 && MarchOffset(8) == 245;
    case 11 => assert MarchOffset(8) == 245 && MarchOffset(9) == 275;
    case 12 => assert MarchOffset(9) == 275 && MarchOffset(10) == 306;
  }

  /** Days before the March-based year `y` (from the epoch of the formula). */
  function YearBase(y: int): int {
    365 * y + y / 4 - y / 100 + y / 400 - 719468
  }

  lemma {:induction false} FebruaryStep(y: int)
    ensures YearBase(y) + MarchOffset(0) - (YearBase(y - 1) + MarchOffset(11)) == DaysInMonth(y, 2)
  {
    LeapCount(y);
    assert MarchOffset(0) == 0 && MarchOffset(11) == 337;
  }

  /** The day number advances by the length of the month: the first of the
      next month is `DaysInMonth` days later, leap years included. */
  lemma {:induction false} DayNumberStep(d: MonthYear)
    requires Valid(d)
    ensures DayNumber(Next(d)) - DayNumber(d) == DaysInMonth(d.year, d.month)
  {
    if d.month == 2 {
      FebruaryDayNumber(d);
    } else {
      OtherMonthDayNumber(d);
    }
  }

  lemma {:induction false} FebruaryDayNumber(d: MonthYear)
    requires Valid(d) && d.month == 2
    ensures DayNumber(Next(d)) - DayNumber(d) == DaysInMonth(d.year, 2)
  {
    var y := d.year;
    assert DayNumber(d) == YearBase(y - 1) + MarchOffset(11);
    assert DayNumber(Next(d)) == YearBase(y) + MarchOffset(0);
    FebruaryStep(y);
  }

  lemma {:induction false} OtherMonthDayNumber(d: MonthYear)
    requires Valid(d) && d.month != 2
    ensures DayNumber(Next(d)) - DayNumber(d) == DaysInMonth(d.year, d.month)
  {
    var y0 := if d.month <= 2 then d.year - 1 else d.year;
    var mp := MonthsSinceMarch(d.month);
    assert DayNumber(d) == YearBase(y0) + MarchOffset(mp);
    assert DayNumber(Next(d)) == YearBase(y0) + MarchOffset(mp + 1);
    assert DaysInMonth(d.year, d.month) == DaysInMonth(0, d.month);
    OffsetStep(d.month);
  }

  /** Later months have strictly larger day numbers. */
  lemma {:induction false} DayNumberIncreasing(a: MonthYear, b: MonthYear)
    requires Valid(a) && Valid(b) && Ordinal(a) < Ordinal(b)
    ensures DayNumber(a) < DayNumber(b)
    decreases Ordinal(b) - Ordinal(a)
  {
    var n := Next(a);
    DayNumberNext(a);
    if Ordinal(n) < Ordinal(b) {
      DayNumberIncreasing(n, b);
    } else {
      OrdinalInjective(n, b);
    }
  }

  /** The next month starts later. */
  lemma {:induction false} DayNumberNext(a: MonthYear)
    requires Valid(a)
    ensures Ordinal(Next(a)) == Ordinal(a) + 1
    ensures DayNumber(a) < DayNumber(Next(a))
  {
    DayNumberStep(a);
  }

  /** Valid months with the same ordinal are the same month. */
  lemma {:induction false} OrdinalInjective(a: MonthYear, b: MonthYear)
    requires Valid(a) && Valid(b) && Ordinal(a) <= Ordinal(b) < Ordinal(a) + 1
    ensures a == b
  {
    assert 12 * (a.year - b.year) == b.month - a.month;
  }

  /** Two dates on the first of a month are zero days apart exactly when they
      are the same month. */
  lemma {:induction false} DayNumberInjective(a: MonthYear, b: MonthYear)
    requires Valid(a) && Valid(b)
    ensures DayNumber(a) == DayNumber(b) <==> a == b
  {
    if Ordinal(a) < Ordinal(b) {
      DayNumberIncreasing(a, b);
    } else if Ordinal(b) < Ordinal(a) {
      DayNumberIncreasing(b, a);
    } else {
      OrdinalInjective(a, b);
    }
  }

  /** No two month names are equal once lower-cased. */
  lemma {:induction false} MonthNamesDistinct(a: nat, b: nat)
    requires a < 12 && b < 12 && a != b
    ensures Lower(MonthNames[a]) != Lower(MonthNames[b])
  {
    var x, y := MonthNames[a], MonthNames[b];
    assert |x| >= 3 && |y| >= 3;
    assert |x| != |y| || LowerChar(x[0]) != LowerChar(y[0]) || LowerChar(x[2]) != LowerChar(y[2]);
    assert |Lower(x)| != |Lower(y)| || Lower(x)[0] != Lower(y)[0] || Lower(x)[2] != Lower(y)[2];
  }

  lemma {:induction false} MonthFromIgnoringCase(name: string, k: nat, m: nat)
    requires k <= m < 12 && Lower(name) == Lower(MonthNames[m])
    ensures MonthFrom(name, true, k) == Some(m + 1)
    decreases 12 - k
  {
    if k < m {
      MonthNamesDistinct(k, m);
      MonthFromIgnoringCase(name, k + 1, m);
    }
  }

  lemma {:induction false} MonthFromExact(name: string, k: nat, m: nat)
    requires k <= m < 12 && name == MonthNames[m]
    ensures MonthFrom(name, false, k) == Some(m + 1)
    decreases 12 - k
  {
    if k < m {
      MonthNamesDistinct(k, m);
      MonthFromExact(name, k + 1, m);
    }
  }

  /** Every letter of a month name is an ASCII letter, so none is whitespace,
      in either case. */
  lemma {:induction false} MonthNameLetters(m: nat)
    requires m < 12
    ensures forall k :: 0 <= k < |MonthNames[m]| ==> IsUpper(MonthNames[m][k]) || 'a' <= MonthNames[m][k] <= 'z'
  {
  }

  /** A name equal to a month name ignoring case contains no whitespace. */
  lemma {:induction false} MonthNameNoSpace(name: string, m: nat)
    requires m < 12 && Lower(name) == Lower(MonthNames[m])
    ensures forall k :: 0 <= k < |name| ==> !IsSpace(name[k])
  {
    MonthNameLetters(m);
    forall k | 0 <= k < |name| ensures !IsSpace(name[k]) {
      assert LowerChar(name[k]) == Lower(MonthNames[m])[k] == LowerChar(MonthNames[m][k]);
    }
  }

  /** `WordEnd` stops at the first whitespace character. */
  lemma {:induction false} WordEndAt(s: string, i: nat, w: nat)
    requires i <= w <= |s|
    requires forall k :: i <= k < w ==> !IsSpace(s[k])
    requires w < |s| ==> IsSpace(s[w])
    ensures WordEnd(s, i) == w
    decreases w - i
  {
    if i < w {
      WordEndAt(s, i + 1, w);
    }
  }

  /** The converse of `MatchMonthYear`'s contract: a month name (exactly, or
      in any case when `ignoreCase`), at least one whitespace character and
      four digits are matched, as that month of that year. */
  lemma {:induction false} HeadingMatched(name: string, sp: string, digits: string, m: nat, ignoreCase: bool)
    requires m < 12
    requires if ignoreCase then Lower(name) == Lower(MonthNames[m]) else name == MonthNames[m]
    requires sp != [] && AllSpace(sp) && |digits| == 4 && IsNumeral(digits)
    ensures MatchMonthYear(name + sp + digits, ignoreCase) == Some(MonthYear(NumeralValue(digits), m + 1))
  {
    var s := name + sp + digits;
    var w := |name|;
    assert WordEnd(s, 0) == w && s[..w] == name by {
      HeadingWordEnd(name, sp, digits, m);
    }
    assert MonthNumber(s[..w], ignoreCase) == Some(m + 1) by {
      if ignoreCase {
        MonthFromIgnoringCase(name, 0, m);
      } else {
        MonthFromExact(name, 0, m);
      }
    }
    HeadingTail(name, sp, digits);
    HeadingParts(s, w, m, ignoreCase);
  }

  /** The whitespace and the digits after the month name of a heading. */
  lemma {:induction false} HeadingTail(name: string, sp: string, digits: string)
    requires |digits| == 4
    ensures var s := name + sp + digits;
      var tail := s[|name|..];
      && tail[..|tail| - 4] == sp && tail[|tail| - 4..] == digits && s[|s| - 4..] == digits
  {
    var s := name + sp + digits;
    assert s[|name|..] == sp + digits;
  }

  /** The match of a text whose first word is a month name and whose rest is
      whitespace and four digits. */
  lemma {:induction false} HeadingParts(s: string, w: nat, m: nat, ignoreCase: bool)
    requires w + 5 <= |s| && WordEnd(s, 0) == w && MonthNumber(s[..w], ignoreCase) == Some(m + 1)
    requires AllSpace(s[w..][..|s[w..]| - 4]) && IsNumeral(s[w..][|s[w..]| - 4..])
    ensures MatchMonthYear(s, ignoreCase) == Some(MonthYear(NumeralValue(s[|s| - 4..]), m + 1))
  {
  }

  /** The month name of a heading ends at the first whitespace character. */
  lemma {:induction false} HeadingWordEnd(name: string, sp: string, digits: string, m: nat)
    requires m < 12 && Lower(name) == Lower(MonthNames[m]) && sp != []
    requires AllSpace(sp)
    ensures WordEnd(name + sp + digits, 0) == |name| && (name + sp + digits)[..|name|] == name
  {
    var s := name + sp + digits;
    var w := |name|;
    MonthNameNoSpace(name, m);
    assert forall k :: 0 <= k < w ==> s[k] == name[k];
    assert s[w] == sp[0];
    WordEndAt(s, 0, w);
    assert s[..w] == name;
  }

  /** Every line made of a month name, whitespace and four digits is a
      heading, of that month and year. */
  lemma {:induction false} DateLineAccepted(sp: string, digits: string, m: nat)
    requires m < 12 && sp != [] && AllSpace(sp) && |digits| == 4 && IsNumeral(digits)
    ensures IsDateLine(MonthNames[m] + sp + digits)
    ensures MatchMonthYear(MonthNames[m] + sp + digits, false) == Some(MonthYear(NumeralValue(digits), m + 1))
  {
    HeadingMatched(MonthNames[m], sp, digits, m, false);
  }

  /** `strptime('%B %Y')` reads a month name in any case, whitespace and four
      digits as that month and year, and refuses exactly year 0. */
  lemma {:induction false} MonthYearAccepted(name: string, sp: string, digits: string, m: nat)
    requires m < 12 && Lower(name) == Lower(MonthNames[m])
    requires sp != [] && AllSpace(sp) && |digits| == 4 && IsNumeral(digits)
    ensures ParseMonthYear(name + sp + digits) ==
      if NumeralValue(digits) >= 1 then Some(MonthYear(NumeralValue(digits), m + 1)) else None
  {
    HeadingMatched(name, sp, digits, m, true);
  }

  /** Every heading line is read by `strptime('%B %Y')` as the same month and
      year, unless the year is 0, which `datetime` rejects. */
  lemma {:induction false} DateLineParses(s: string)
    requires IsDateLine(s)
    ensures MatchMonthYear(s, false).value.year >= 1 <==> ParseMonthYear(s).Some?
    ensures ParseMonthYear(s).Some? ==> ParseMonthYear(s) == MatchMonthYear(s, false)
  {
    var w := WordEnd(s, 0);
    var m :| 0 <= m < 12 && s[..w] == MonthNames[m] && MonthNumber(s[..w], false) == Some(m + 1);
    MonthFromIgnoringCase(s[..w], 0, m);
  }

  /** A heading line starts with the capital of its month name. */
  lemma {:induction false} DateLineStartsUpper(s: string)
    ensures IsDateLine(s) ==> |s| > 0 && IsUpper(s[0])
  {
    if IsDateLine(s) {
      var m := MatchMonthYear(s, false).value.month;
      var name := MonthNames[m - 1];
      MonthNameUpper(m - 1);
      assert s[0] == s[..|name|][0] == name[0];
    }
  }

  /** Every month name is capitalised. */
  lemma {:induction false} MonthNameUpper(k: nat)
    requires k < 12
    ensures MonthNames[k] != [] && IsUpper(MonthNames[k][0])
  {
  }
}

=== FILE: entry.dfy ===
/** The save action of the entry dialog: the mileage checks, the line it
    appends to the log, and what parsing the log gives back afterwards. */
module Entry {
  import opened Wrappers
  import opened Text
  import opened Patterns
  import opened Lines
  import opened Parser

  /** Why the dialog refuses to save. */
  datatype SaveError = NotANumber | BelowLastMileage

  /** The fixed start of every saved description. */
  const Phrase := "Oil and Filter change"

  /** The two parenthesised fields after the phrase. */
  function Groups(oil: string, filter: string): string {
    " (" + oil + ") (" + filter + ")"
  }

  function Description(oil: string, filter: string): string {
    Phrase + Groups(oil, filter)
  }

  /** The line the dialog appends: mileage, separator, description, newline. */
  function EntryLine(mileage: string, oil: string, filter: string): string {
    mileage + MilesSeparator + Description(oil, filter) + "\n"
  }

  /** The save action on the dialog's four fields (each stripped first) and
      the last mileage of the log: a mileage that is not a digit string, or is
      below the last mileage, is refused; otherwise the entry line is the
      result. The date field is read but not written. */
  function SaveEntry(lastMileage: string, mileage: string, oil: string, filter: string): (r: Result<string, SaveError>)
    requires IsNumeral(lastMileage)
    ensures r == Failure(NotANumber) <==> !IsNumeral(Strip(mileage))
    ensures r == Failure(BelowLastMileage) <==>
              IsNumeral(Strip(mileage)) && NumeralValue(Strip(mileage)) < NumeralValue(lastMileage)
    ensures r.Success? ==> r.value == EntryLine(Strip(mileage), Strip(oil), Strip(filter))
  {
    var m := Strip(mileage);
    if !IsNumeral(m) then Failure(NotANumber)
    else if NumeralValue(m) < NumeralValue(lastMileage) then Failure(BelowLastMileage)
    else Success(EntryLine(m, Strip(oil), Strip(filter)))
  }

  lemma {:induction false} PhraseWordAt(i: nat, w: string)
    requires i + |w| <= |Phrase| && forall k :: 0 <= k < |w| ==> LowerChar(Phrase[i + k]) == w[k]
    ensures WordAt(Phrase, i, w)
  {
    assert Lower(Phrase[i..i + |w|]) == w;
  }

  lemma {:induction false} PhraseGaps()
    ensures SkipSpaces(Phrase, 3) == 4 && SkipSpaces(Phrase, 7) == 8 && SkipSpaces(Phrase, 14) == 15
  {
    SkipOneSpace(Phrase, 3);
    SkipOneSpace(Phrase, 7);
    SkipOneSpace(Phrase, 14);
  }

  /** The phrase pattern matches at the start of `Phrase`. */
  lemma {:induction false} PhraseAtStart()
    ensures PhraseAt(Phrase, 0)
  {
    PhraseWordAt(0, "oil");
    PhraseWordAt(4, "and");
    PhraseWordAt(8, "filter");
    PhraseWordAt(15, "change");
    PhraseGaps();
    assert WordsAfter(Phrase, 21, PhraseWords[3..]);
    assert WordsAfter(Phrase, 14, PhraseWords[2..]);
    assert WordsAfter(Phrase, 7, PhraseWords[1..]);
  }

  /** The saved description names an oil and filter change. */
  lemma {:induction false} DescriptionHasPhrase(oil: string, filter: string)
    ensures ContainsPhrase(Description(oil, filter))
  {
    PhraseAtStart();
    PhraseKeptByAppend(Phrase, Groups(oil, filter));
  }

  /** Without a newline in either field the saved text is one line, and it
      reads back as a mileage line with the same digits and description. */
  lemma {:induction false} EntryLineShape(mileage: string, oil: string, filter: string)
    requires IsNumeral(mileage) && '\n' !in oil && '\n' !in filter
    ensures var l := EntryLine(mileage, oil, filter);
      && IsLine(l) && EndsInNewline(l)
      && MatchMileage(Strip(l)) == Some(MileageMatch(mileage, Description(oil, filter)))
  {
    var d := Description(oil, filter);
    var body := mileage + MilesSeparator + d;
    var l := body + "\n";
    assert '\n' !in d;
    assert '\n' !in mileage by {
      forall k | 0 <= k < |mileage| ensures mileage[k] != '\n' { assert IsDigit(mileage[k]); }
    }
    assert '\n' !in body;
    assert l[..|l| - 1] == body;
    assert IsStripped(body) by {
      assert body[0] == mileage[0] && IsDigit(mileage[0]);
      assert body[|body| - 1] == ')';
    }
    StripFinalNewline(body);
    MileageLineRoundTrip(mileage, d);
  }

  /** Where the two fields sit in the description. */
  lemma {:induction false} DescriptionLayout(oil: string, filter: string)
    ensures var d := Description(oil, filter);
      var n := |oil|;
      && |d| == 27 + n + |filter|
      && (forall k :: 0 <= k < 22 ==> d[k] != '(')
      && d[22] == '(' && d[23..23 + n] == oil && d[23 + n] == ')'
      && d[24 + n] == ' '
      && d[25 + n] == '(' && d[26 + n..26 + n + |filter|] == filter && d[26 + n + |filter|] == ')'
  {
    var d := Description(oil, filter);
    var n := |oil|;
    assert d[..21] == Phrase;
    forall k | 0 <= k < 22 ensures d[k] != '(' {
      if k < 21 { assert d[k] == Phrase[k]; }
    }
  }

  /** The parenthesised groups of the description are the two fields, when
      both are non-empty and free of parentheses. */
  lemma {:induction false} DescriptionGroups(oil: string, filter: string)
    requires oil != [] && ParenFree(oil) && filter != [] && ParenFree(filter)
    ensures ParenGroups(Description(oil, filter), 0) == [oil, filter]
  {
    DescriptionLayout(oil, filter);
    TwoGroups(Description(oil, filter), oil, filter);
  }

  /** The groups of any text laid out as a description. */
  lemma {:induction false} TwoGroups(d: string, oil: string, filter: string)
    requires oil != [] && ParenFree(oil) && filter != [] && ParenFree(filter)
    requires var n := |oil|;
      && |d| == 27 + n + |filter|
      && (forall k :: 0 <= k < 22 ==> d[k] != '(')
      && d[22] == '(' && d[23..23 + n] == oil && d[23 + n] == ')'
      && d[24 + n] == ' '
      && d[25 + n] == '(' && d[26 + n..26 + n + |filter|] == filter && d[26 + n + |filter|] == ')'
    ensures ParenGroups(d, 0) == [oil, filter]
  {
    var n := |oil|;
    var e := 27 + n + |filter|;
    SkipThenGroup(d, 0, 22, oil);
    SkipThenGroup(d, 24 + n, 25 + n, filter);
    assert ParenGroups(d, e) == [];
  }

  /** An oil code typed in the oil field is the oil type read back. */
  lemma {:induction false} DescriptionOil(oil: string, filter: string)
    requires IsOilCode(oil)
    ensures OilTypeOf(Description(oil, filter)) == oil
  {
    DescriptionLayout(oil, filter);
    OilTypeFirstCode(Description(oil, filter), 22, oil);
  }

  /** With an oil code in the oil field and a parenthesis-free filter code in
      the filter field, the filter type read back is the filter field. */
  lemma {:induction false} DescriptionFilter(oil: string, filter: string)
    requires IsOilCode(oil) && IsFilterCode(filter) && ParenFree(filter) && IsStripped(filter)
    ensures FilterTypeOf(Description(oil, filter), oil) == filter
  {
    OilCodeParenFree(oil);
    DescriptionGroups(oil, filter);
    SelectFilterCodes(oil, filter);
  }

  /** The record the saved line yields under any cursor: the typed mileage
      and the oil and filter types read from the saved description. */
  lemma {:induction false} EntryRecord(mileage: string, oil: string, filter: string, date: string)
    requires IsNumeral(mileage) && '\n' !in oil && '\n' !in filter
    ensures var d := Description(oil, filter);
      var o := OilTypeOf(d);
      LineRecord(Strip(EntryLine(mileage, oil, filter)), None, date)
        == Some(Record(mileage, date, o, FilterTypeOf(d, o)))
  {
    EntryLineShape(mileage, oil, filter);
    DescriptionHasPhrase(oil, filter);
  }

  /** Appending the saved line to lines that name a vehicle keeps the vehicle
      and the records and adds the entry's record under the final cursor. */
  lemma {:induction false} AppendEntryLine(lines: seq<string>, mileage: string, oil: string, filter: string)
    requires FirstNonBlank(lines, 0).Some?
    requires IsNumeral(mileage) && '\n' !in oil && '\n' !in filter
    ensures var after := ParseLines(lines + [EntryLine(mileage, oil, filter)]);
      var d := Description(oil, filter);
      var o := OilTypeOf(d);
      && after.vehicle == ParseLines(lines).vehicle
      && after.records == ParseLines(lines).records + [Record(mileage, FinalHeading(lines), o, FilterTypeOf(d, o))]
      && after.summary.lastMileage == mileage
  {
    var line := EntryLine(mileage, oil, filter);
    EntryLineShape(mileage, oil, filter);
    ParseLinesAppend(lines, FirstNonBlank(lines, 0).value, line);
    EntryRecord(mileage, oil, filter, FinalHeading(lines));
    ParseLinesSummary(lines + [line]);
  }

  /** What a successful save produces: the entry line of the stripped fields,
      one line long, for a mileage not below the last one, which the mileage
      pattern reads back as the typed digits and the saved description. */
  lemma {:induction false} SavedLine(lastMileage: string, mileage: string, oil: string, filter: string, line: string)
    requires IsNumeral(lastMileage)
    requires '\n' !in Strip(oil) && '\n' !in Strip(filter)
    requires SaveEntry(lastMileage, mileage, oil, filter) == Success(line)
    ensures IsNumeral(Strip(mileage)) && NumeralValue(Strip(mileage)) >= NumeralValue(lastMileage)
    ensures line == EntryLine(Strip(mileage), Strip(oil), Strip(filter))
    ensures IsLine(line) && EndsInNewline(line)
    ensures MatchMileage(Strip(line)) == Some(MileageMatch(Strip(mileage), Description(Strip(oil), Strip(filter))))
  {
    EntryLineShape(Strip(mileage), Strip(oil), Strip(filter));
  }

  /** Saving then parsing again: when the log names its vehicle and ends in a
      newline, appending the saved line keeps the vehicle and every record and
      adds one record for the new entry, dated by the last heading of the log;
      the summary's last mileage does not go down. */
  lemma {:induction false} SaveThenParse(text: string, mileage: string, oil: string, filter: string, line: string)
    requires EndsInNewline(text) && ParseLog(text).vehicle != []
    requires '\n' !in Strip(oil) && '\n' !in Strip(filter)
    requires SaveEntry(ParseLog(text).summary.lastMileage, mileage, oil, filter) == Success(line)
    ensures var before := ParseLog(text);
      var after := ParseLog(text + line);
      var d := Description(Strip(oil), Strip(filter));
      var o := OilTypeOf(d);
      && after.vehicle == before.vehicle
      && after.records == before.records + [Record(Strip(mileage), FinalDate(text), o, FilterTypeOf(d, o))]
      && after.summary.lastMileage == Strip(mileage)
      && NumeralValue(after.summary.lastMileage) >= NumeralValue(before.summary.lastMileage)
  {
    var lines := ReadLines(text);
    SavedLine(ParseLog(text).summary.lastMileage, mileage, oil, filter, line);
    ReadLinesAppendLine(text, line);
    ParseLinesVehicle(lines);
    AppendEntryLine(lines, Strip(mileage), Strip(oil), Strip(filter));
  }

  /** With an oil code and a parenthesis-free filter code, the summary after
      appending the saved line is exactly the typed fields under the final
      cursor. */
  lemma {:induction false} AppendEntryCodes(lines: seq<string>, mileage: string, oil: string, filter: string)
    requires FirstNonBlank(lines, 0).Some? && IsNumeral(mileage)
    requires IsOilCode(oil) && IsFilterCode(filter) && ParenFree(filter) && IsStripped(filter)
    requires '\n' !in oil && '\n' !in filter
    ensures ParseLines(lines + [EntryLine(mileage, oil, filter)]).summary
            == Summary(oil, filter, FinalHeading(lines), mileage)
  {
    var after := ParseLines(lines + [EntryLine(mileage, oil, filter)]);
    AppendEntryLine(lines, mileage, oil, filter);
    DescriptionOil(oil, filter);
    DescriptionFilter(oil, filter);
    ParseLinesSummary(lines + [EntryLine(mileage, oil, filter)]);
    SummaryOfAppend(ParseLines(lines).records, Record(mileage, FinalHeading(lines), oil, filter));
  }

  /** An oil code holds no newline. */
  lemma {:induction false} OilCodeOneLine(o: string)
    requires IsOilCode(o)
    ensures '\n' !in o
  {
    OilCodeParenFree(o);
    forall k | 3 <= k < |o| ensures o[k] != '\n' {
      assert IsDigit(o[3..][k - 3]);
    }
  }

  /** When the oil field holds an oil code and the filter field a filter code
      without parentheses, the summary after saving is exactly what was typed,
      under the log's last heading. */
  lemma {:induction false} SaveThenParseCodes(text: string, mileage: string, oil: string, filter: string, line: string)
    requires EndsInNewline(text) && ParseLog(text).vehicle != []
    requires IsOilCode(Strip(oil)) && IsFilterCode(Strip(filter)) && ParenFree(Strip(filter))
    requires '\n' !in Strip(filter)
    requires SaveEntry(ParseLog(text).summary.lastMileage, mileage, oil, filter) == Success(line)
    ensures ParseLog(text + line).summary == Summary(Strip(oil), Strip(filter), FinalDate(text), Strip(mileage))
  {
    var lines := ReadLines(text);
    OilCodeOneLine(Strip(oil));
    EntryLineShape(Strip(mileage), Strip(oil), Strip(filter));
    ReadLinesAppendLine(text, line);
    ParseLinesVehicle(lines);
    AppendEntryCodes(lines, Strip(mileage), Strip(oil), Strip(filter));
  }
}

=== FILE: estimator.dfy ===
/** The mileage estimate: records whose date parses become (day, mileage)
    points, the points are sorted by day, and the line through the earliest
    and the latest point is extended to today and truncated toward zero. */
module Estimator {
  import opened Wrappers
  import opened Text
  import opened Calendar
  import opened Parser
  import Lines

  /** One dated reading: the day number of the first of its month and the
      odometer value. */
  datatype Point = Point(day: int, miles: int)

  /** What `int(entry['Mileage'])` needs of every record. */
  predicate Mileages(records: seq<Record>) {
    forall k :: 0 <= k < |records| ==> IsNumeral(records[k].mileage)
  }

  /** The point a record contributes, or None when `strptime` rejects its date. */
  function PointOf(r: Record): (p: Option<Point>)
    requires IsNumeral(r.mileage)
    ensures p.Some? <==> ParseMonthYear(r.date).Some?
    ensures p.Some? ==> p.value.miles == NumeralValue(r.mileage) && p.value.day == DayNumber(ParseMonthYear(r.date).value)
  {
    match ParseMonthYear(r.date)
    case None => None
    case Some(d) => Some(Point(DayNumber(d), NumeralValue(r.mileage)))
  }

  /** The collection loop: records with an unparsable date are skipped. */
  function Dated(records: seq<Record>): (ps: seq<Point>)
    requires Mileages(records)
    ensures |ps| <= |records|
    decreases |records|
  {
    if records == [] then []
    else
      var rest := Dated(records[1..]);
      match PointOf(records[0])
      case None => rest
      case Some(p) => [p] + rest
  }

  function Yielded(p: Option<Point>): seq<Point> {
    if p.Some? then [p.value] else []
  }

  lemma {:induction false} DatedStep(records: seq<Record>)
    requires records != [] && Mileages(records)
    ensures Dated(records) == Yielded(PointOf(records[0])) + Dated(records[1..])
  {
    var rest := Dated(records[1..]);
    if PointOf(records[0]).Some? {
      assert Dated(records) == [PointOf(records[0]).value] + rest;
    } else {
      assert Dated(records) == rest;
    }
  }

  /** A point is collected exactly when some record yields it. */
  lemma {:induction false} DatedMembers(records: seq<Record>, p: Point)
    requires Mileages(records)
    ensures p in Dated(records) <==> exists k :: 0 <= k < |records| && PointOf(records[k]) == Some(p)
    decreases |records|
  {
    if records != [] {
      var rest := records[1..];
      MileagesTail(records);
      DatedMembers(rest, p);
      DatedStep(records);
      assert p in Dated(records) <==> PointOf(records[0]) == Some(p) || p in Dated(rest);
      if p in Dated(rest) {
        var k :| 0 <= k < |rest| && PointOf(rest[k]) == Some(p);
        assert records[k + 1] == rest[k];
      }
      if k :| 0 <= k < |records| && PointOf(records[k]) == Some(p) {
        if k > 0 {
          assert rest[k - 1] == records[k];
        }
      }
    }
  }

  /** The loop appends in record order: the points of two runs of records are
      the points of the first run followed by those of the second, and one
      record gives its own point or nothing. Together these fix the order and
      the multiplicity of the points, which the stable sort's tie-break reads. */
  lemma {:induction false} DatedInOrder(a: seq<Record>, b: seq<Record>, r: Record)
    requires Mileages(a) && Mileages(b) && IsNumeral(r.mileage)
    ensures Mileages(a + b) && Dated(a + b) == Dated(a) + Dated(b)
    ensures Mileages([r]) && Dated([r]) == Yielded(PointOf(r))
  {
    DatedAppend(a, b);
    DatedStep([r]);
    assert [r][1..] == [];
  }

  lemma {:induction false} MileagesAppend(a: seq<Record>, b: seq<Record>)
    requires Mileages(a) && Mileages(b)
    ensures Mileages(a + b)
  {
    forall k | 0 <= k < |a + b| ensures IsNumeral((a + b)[k].mileage) {
      if k < |a| {
        assert (a + b)[k] == a[k];
      } else {
        assert (a + b)[k] == b[k - |a|];
      }
    }
  }

  lemma {:induction false} DatedAppend(a: seq<Record>, b: seq<Record>)
    requires Mileages(a) && Mileages(b)
    ensures Mileages(a + b) && Dated(a + b) == Dated(a) + Dated(b)
    decreases |a|
  {
    MileagesAppend(a, b);
    if a == [] {
      assert a + b == b;
    } else {
      var t := a[1..];
      MileagesTail(a);
      DatedAppend(t, b);
      Lines.ConcatTail(a, b);
      DatedStep(a + b);
      DatedStep(a);
      Lines.ConcatAssociates(Yielded(PointOf(a[0])), Dated(t), Dated(b));
    }
  }

  lemma {:induction false} MileagesTail(a: seq<Record>)
    requires a != [] && Mileages(a)
    ensures Mileages(a[1..])
  {
    forall k | 0 <= k < |a[1..]| ensures IsNumeral(a[1..][k].mileage) {
      assert a[1..][k] == a[k + 1];
    }
  }

  /** Every record's date parses exactly when no record is skipped. */
  lemma {:induction false} DatedKeepsAll(records: seq<Record>)
    requires Mileages(records)
    ensures |Dated(records)| == |records| <==> forall k :: 0 <= k < |records| ==> ParseMonthYear(records[k].date).Some?
    decreases |records|
  {
    if records != [] {
      MileagesTail(records);
      DatedStep(records);
      DatedKeepsAll(records[1..]);
      if forall k :: 0 <= k < |records| ==> ParseMonthYear(records[k].date).Some? {
        assert forall k :: 0 <= k < |records[1..]| ==> ParseMonthYear(records[1..][k].date).Some? by {
          forall k | 0 <= k < |records[1..]| ensures ParseMonthYear(records[1..][k].date).Some? {
            assert records[1..][k] == records[k + 1];
          }
        }
      }
      if |Dated(records)| == |records| {
        assert PointOf(records[0]).Some?;
        forall k | 0 <= k < |records| ensures ParseMonthYear(records[k].date).Some? {
          if k > 0 {
            assert records[k] == records[1..][k - 1];
          }
        }
      }
    }
  }

  predicate SortedByDay(s: seq<Point>) {
    forall i, j :: 0 <= i < j < |s| ==> s[i].day <= s[j].day
  }

  /** Insertion of `x` before the first point that is not earlier than it, so
      that points of equal day keep their order when `x` came first. */
  function Insert(x: Point, t: seq<Point>): (r: seq<Point>)
    ensures |r| == |t| + 1
    ensures multiset(r) == multiset(t) + multiset{x}
    decreases |t|
  {
    if t == [] || x.day <= t[0].day then [x] + t
    else
      assert t == [t[0]] + t[1..];
      [t[0]] + Insert(x, t[1..])
  }

  /** Insertion keeps a day-sorted sequence sorted. */
  lemma {:induction false} InsertSorted(x: Point, t: seq<Point>)
    requires SortedByDay(t)
    ensures SortedByDay(Insert(x, t))
    decreases |t|
  {
    if t != [] && x.day > t[0].day {
      var u := t[1..];
      assert SortedByDay(u) by {
        forall i, j | 0 <= i < j < |u| ensures u[i].day <= u[j].day {
          assert u[i] == t[i + 1] && u[j] == t[j + 1];
        }
      }
      InsertSorted(x, u);
      var v := Insert(x, u);
      assert Insert(x, t) == [t[0]] + v;
      forall j | 0 <= j < |v| ensures t[0].day <= v[j].day {
        assert v[j] in multiset(v);
        if v[j] != x {
          assert v[j] in multiset(u);
          var k :| 0 <= k < |u| && u[k] == v[j];
          assert u[k] == t[k + 1];
        }
      }
    }
  }

  /** `sorted(..., key=date)`: a stable sort by day. */
  function SortByDay(s: seq<Point>): (r: seq<Point>)
    ensures |r| == |s|
    decreases |s|
  {
    if s == [] then [] else Insert(s[0], SortByDay(s[1..]))
  }

  /** The insertion sort neither loses nor invents points. */
  lemma {:induction false} SortByDayPermutes(s: seq<Point>)
    ensures multiset(SortByDay(s)) == multiset(s)
    decreases |s|
  {
    if s != [] {
      SortByDayPermutes(s[1..]);
      assert s == [s[0]] + s[1..];
    }
  }

  /** The insertion sort orders the points by day. */
  lemma {:induction false} SortByDaySorted(s: seq<Point>)
    ensures SortedByDay(SortByDay(s))
    decreases |s|
  {
    if s != [] {
      SortByDaySorted(s[1..]);
      InsertSorted(s[0], SortByDay(s[1..]));
    }
  }

  /** Position of the first point with the smallest day. */
  function FirstMinIndex(s: seq<Point>): (i: nat)
    requires s != []
    ensures i < |s|
    decreases |s|
  {
    if |s| == 1 then 0
    else
      var k := FirstMinIndex(s[1..]);
      if s[0].day <= s[1..][k].day then 0 else k + 1
  }

  /** `FirstMinIndex` finds a point no later than any other, and every point
      before it is strictly later. */
  lemma {:induction false} FirstMinIndexIsFirstMin(s: seq<Point>)
    requires s != []
    ensures var i := FirstMinIndex(s);
      && (forall j :: 0 <= j < |s| ==> s[i].day <= s[j].day)
      && (forall j :: 0 <= j < i ==> s[i].day < s[j].day)
    decreases |s|
  {
    if |s| > 1 {
      FirstMinIndexIsFirstMin(s[1..]);
      assert forall j :: 1 <= j < |s| ==> s[j] == s[1..][j - 1];
    }
  }

  /** Position of the last point with the largest day. */
  function LastMaxIndex(s: seq<Point>): (i: nat)
    requires s != []
    ensures i < |s|
    decreases |s|
  {
    if |s| == 1 then 0
    else
      var k := LastMaxIndex(s[1..]);
      if s[0].day > s[1..][k].day then 0 else k + 1
  }

  /** `LastMaxIndex` finds a point no earlier than any other, and every point
      after it is strictly earlier. */
  lemma {:induction false} LastMaxIndexIsLastMax(s: seq<Point>)
    requires s != []
    ensures var i := LastMaxIndex(s);
      && (forall j :: 0 <= j < |s| ==> s[j].day <= s[i].day)
      && (forall j :: i < j < |s| ==> s[j].day < s[i].day)
    decreases |s|
  {
    if |s| > 1 {
      LastMaxIndexIsLastMax(s[1..]);
      assert forall j :: 1 <= j < |s| ==> s[j] == s[1..][j - 1];
    }
  }

  lemma {:induction false} InsertHead(x: Point, t: seq<Point>)
    ensures Insert(x, t)[0] == if t == [] || x.day <= t[0].day then x else t[0]
  {
  }

  /** The last point after inserting `x`: `x` itself only when it is strictly
      later than every point already there. */
  lemma {:induction false} InsertLast(x: Point, t: seq<Point>)
    requires t != [] && SortedByDay(t)
    ensures Insert(x, t)[|t|] == if x.day > t[|t| - 1].day then x else t[|t| - 1]
    decreases |t|
  {
    if x.day <= t[0].day {
      assert x.day <= t[|t| - 1].day;
    } else if |t| == 1 {
      assert Insert(x, t) == [t[0]] + [x];
    } else {
      var u := t[1..];
      assert SortedByDay(u) by {
        forall i, j | 0 <= i < j < |u| ensures u[i].day <= u[j].day {
          assert u[i] == t[i + 1] && u[j] == t[j + 1];
        }
      }
      InsertLast(x, u);
      assert u[|u| - 1] == t[|t| - 1];
      assert Insert(x, t) == [t[0]] + Insert(x, u);
    }
  }

  /** The stable sort's first point is the earliest point that occurs first. */
  lemma {:induction false} SortFirst(s: seq<Point>)
    requires s != []
    ensures SortByDay(s)[0] == s[FirstMinIndex(s)]
    decreases |s|
  {
    var t := SortByDay(s[1..]);
    InsertHead(s[0], t);
    if |s| > 1 {
      SortFirst(s[1..]);
      assert s[1..][FirstMinIndex(s[1..])] == s[FirstMinIndex(s[1..]) + 1];
    }
  }

  /** The stable sort's last point is the latest point that occurs last. */
  lemma {:induction false} SortLast(s: seq<Point>)
    requires s != []
    ensures SortByDay(s)[|s| - 1] == s[LastMaxIndex(s)]
    decreases |s|
  {
    var t := SortByDay(s[1..]);
    if |s| == 1 {
      assert SortByDay(s) == [s[0]];
    } else {
      var k := LastMaxIndex(s[1..]);
      assert SortByDay(s) == Insert(s[0], t);
      SortByDaySorted(s[1..]);
      SortLast(s[1..]);
      InsertLast(s[0], t);
      assert s[1..][k] == s[k + 1];
      assert LastMaxIndex(s) == if s[0].day > s[k + 1].day then 0 else k + 1;
    }
  }

  /** `int()` of a quotient: division truncating toward zero. */
  function TruncDiv(a: int, b: int): (r: int)
    requires b > 0
    ensures a >= 0 ==> r * b <= a < r * b + b
    ensures a < 0 ==> r * b - b < a <= r * b
  {
    if a >= 0 then a / b else -((-a) / b)
  }

  /** Truncation toward zero is symmetric about zero, unlike Dafny's `/`. */
  lemma {:induction false} TruncDivNegate(a: int, b: int)
    requires b > 0
    ensures TruncDiv(-a, b) == -TruncDiv(a, b)
  {
  }

  /** The estimate from two points, in exact arithmetic: the last mileage plus
      the average per day over the days since the last point, truncated. */
  function Extrapolate(first: Point, last: Point, today: int): int
    requires first.day < last.day
  {
    var totalDays := last.day - first.day;
    TruncDiv(last.miles * totalDays + (last.miles - first.miles) * (today - last.day), totalDays)
  }

  /** NA, or the truncated extrapolation to `today` (a day number). */
  function Estimate(records: seq<Record>, today: int): Option<int>
    requires Mileages(records)
  {
    if |records| < 2 then None else EstimateFromPoints(Dated(records), today)
  }

  /** The part of the estimate after the collection loop. */
  function EstimateFromPoints(ps: seq<Point>, today: int): Option<int> {
    match Endpoints(ps)
    case None => None
    case Some(e) => Some(Extrapolate(e.0, e.1, today))
  }

  /** The first and last of the sorted points, when there are two or more and
      the span between them is positive. */
  function Endpoints(ps: seq<Point>): (r: Option<(Point, Point)>)
    ensures r.Some? ==> r.value.0.day < r.value.1.day
  {
    if |ps| < 2 then None else Span(SortByDay(ps))
  }

  /** The first and last of sorted points, unless they fall on one day. */
  function Span(sorted: seq<Point>): (r: Option<(Point, Point)>)
    requires sorted != []
    ensures r.Some? ==> r.value.0.day < r.value.1.day
  {
    var first := sorted[0];
    var last := sorted[|sorted| - 1];
    if last.day - first.day <= 0 then None else Some((first, last))
  }

  predicate SameDay(ps: seq<Point>) {
    forall i :: 0 <= i < |ps| ==> ps[i].day == ps[0].day
  }

  /** All points share a day exactly when the earliest and the latest do. */
  lemma {:induction false} SameDayIffEndsMeet(ps: seq<Point>)
    requires ps != []
    ensures SameDay(ps) <==> ps[FirstMinIndex(ps)].day == ps[LastMaxIndex(ps)].day
  {
    var lo, hi := FirstMinIndex(ps), LastMaxIndex(ps);
    FirstMinIndexIsFirstMin(ps);
    LastMaxIndexIsLastMax(ps);
    if ps[lo].day == ps[hi].day {
      forall i | 0 <= i < |ps| ensures ps[i].day == ps[0].day {
        assert ps[lo].day <= ps[i].day <= ps[hi].day;
        assert ps[lo].day <= ps[0].day <= ps[hi].day;
      }
    }
  }

  /** The span is empty exactly when there are fewer than two points or all
      fall on one day; otherwise it runs from the first point with the earliest
      day to the last point with the latest day. */
  lemma {:induction false} EndpointsCases(ps: seq<Point>)
    ensures Endpoints(ps).None? <==> |ps| < 2 || SameDay(ps)
    ensures Endpoints(ps).Some? ==> Endpoints(ps).value == (ps[FirstMinIndex(ps)], ps[LastMaxIndex(ps)])
  {
    if |ps| >= 2 {
      EndpointsOfExtremes(ps);
      SameDayIffEndsMeet(ps);
    }
  }

  lemma {:induction false} EndpointsOfExtremes(ps: seq<Point>)
    requires |ps| >= 2
    ensures var first, last := ps[FirstMinIndex(ps)], ps[LastMaxIndex(ps)];
      Endpoints(ps) == if last.day - first.day <= 0 then None else Some((first, last))
  {
    var lo, hi := FirstMinIndex(ps), LastMaxIndex(ps);
    var sorted := SortByDay(ps);
    SortedEnds(ps);
    assert sorted[0] == ps[lo] && sorted[|sorted| - 1] == ps[hi];
    EndpointsIsSpan(ps);
    assert Endpoints(ps) == Span(sorted);
    SpanOfEnds(sorted, ps[lo], ps[hi]);
  }

  lemma {:induction false} EndpointsIsSpan(ps: seq<Point>)
    requires |ps| >= 2
    ensures Endpoints(ps) == Span(SortByDay(ps))
  {
  }

  lemma {:induction false} SpanOfEnds(sorted: seq<Point>, first: Point, last: Point)
    requires sorted != [] && sorted[0] == first && sorted[|sorted| - 1] == last
    ensures Span(sorted) == if last.day - first.day <= 0 then None else Some((first, last))
  {
  }

  /** The ends of the stable sort, as positions in the unsorted points. */
  lemma {:induction false} SortedEnds(ps: seq<Point>)
    requires ps != []
    ensures SortByDay(ps)[0] == ps[FirstMinIndex(ps)]
    ensures SortByDay(ps)[|ps| - 1] == ps[LastMaxIndex(ps)]
  {
    SortFirst(ps);
    SortLast(ps);
  }

  /** The estimate is NA exactly when there are fewer than two records, fewer
      than two of them have a date that parses, or all of those fall in the
      same month; otherwise it extrapolates from the first point with the
      earliest day to the last point with the latest day. */
  lemma {:induction false} EstimateCases(records: seq<Record>, today: int)
    requires Mileages(records)
    ensures var ps := Dated(records);
      && (Estimate(records, today).None? <==> |records| < 2 || |ps| < 2 || SameDay(ps))
      && (Estimate(records, today).Some? ==>
            && ps[FirstMinIndex(ps)].day < ps[LastMaxIndex(ps)].day
            && Estimate(records, today).value == Extrapolate(ps[FirstMinIndex(ps)], ps[LastMaxIndex(ps)], today))
  {
    EndpointsCases(Dated(records));
  }

  lemma {:induction false} MulSign(q: int, d: int)
    requires d > 0
    ensures q > 0 ==> q * d > 0
    ensures q < 0 ==> q * d < 0
  {
  }

  /** Dividing an exact multiple gives the multiplier back. */
  lemma {:induction false} TruncDivExact(q: int, d: int)
    requires d > 0
    ensures TruncDiv(q * d, d) == q
  {
    var r := TruncDiv(q * d, d);
    assert (q - r) * d == q * d - r * d;
    MulSign(q - r, d);
    MulSign(q - r - 1, d);
    MulSign(q - r + 1, d);
  }

  /** A numerator of at least `q` multiples gives at least `q`. */
  lemma {:induction false} TruncDivAtLeast(a: int, q: int, d: int)
    requires d > 0 && a >= q * d
    ensures TruncDiv(a, d) >= q
  {
    var r := TruncDiv(a, d);
    assert (r + 1 - q) * d == r * d + d - q * d;
    assert (r - q) * d == r * d - q * d;
    MulSign(r + 1 - q, d);
    MulSign(r - q, d);
  }

  /** The line goes through the last point: on the day of the last entry the
      estimate is its mileage. */
  lemma {:induction false} ExtrapolateAtLast(first: Point, last: Point)
    requires first.day < last.day
    ensures Extrapolate(first, last, last.day) == last.miles
  {
    var d := last.day - first.day;
    assert last.miles * d + (last.miles - first.miles) * (last.day - last.day) == last.miles * d;
    TruncDivExact(last.miles, d);
  }

  /** The line goes through the first point too. */
  lemma {:induction false} ExtrapolateAtFirst(first: Point, last: Point)
    requires first.day < last.day
    ensures Extrapolate(first, last, first.day) == first.miles
  {
    var d := last.day - first.day;
    assert (last.miles - first.miles) * (first.day - last.day) == first.miles * d - last.miles * d;
    TruncDivExact(first.miles, d);
  }

  /** When mileage has not gone down and today is not before the last entry,
      the estimate is at least the last mileage. */
  lemma {:induction false} ExtrapolateNotBelowLast(first: Point, last: Point, today: int)
    requires first.day < last.day && first.miles <= last.miles && last.day <= today
    ensures Extrapolate(first, last, today) >= last.miles
  {
    var d := last.day - first.day;
    var extra := (last.miles - first.miles) * (today - last.day);
    assert extra >= 0 by {
      if last.miles - first.miles > 0 && today - last.day > 0 {
        MulSign(last.miles - first.miles, today - last.day);
      }
    }
    TruncDivAtLeast(last.miles * d + extra, last.miles, d);
  }
}

=== FILE: lines.dfy ===
/** `file.readlines()`: the text cut after every newline, each line keeping its
    newline, the last line possibly without one. */
module Lines {

  function Concat(lines: seq<string>): string {
    if lines == [] then [] else lines[0] + Concat(lines[1..])
  }

  /** A line as `readlines` yields it: non-empty, with a newline at most as its
      last character. */
  predicate IsLine(l: string) {
    l != [] && '\n' !in l[..|l| - 1]
  }

  predicate EndsInNewline(l: string) {
    l != [] && l[|l| - 1] == '\n'
  }

  function ReadLines(text: string): (lines: seq<string>)
    ensures Concat(lines) == text
    ensures forall i :: 0 <= i < |lines| ==> IsLine(lines[i])
    ensures forall i :: 0 <= i < |lines| - 1 ==> EndsInNewline(lines[i])
    ensures text != [] ==> lines != [] && (EndsInNewline(lines[|lines| - 1]) <==> EndsInNewline(text))
  {
    if text == [] then []
    else
      var rest := ReadLines(text[1..]);
      if text[0] == '\n' || rest == [] then
        StartLine(text, rest);
        [[text[0]]] + rest
      else
        ExtendLine(text, rest);
        [[text[0]] + rest[0]] + rest[1..]
  }

  /** A newline, or a last character, is a line of its own. */
  lemma {:induction false} StartLine(text: string, rest: seq<string>)
    requires text != [] && Concat(rest) == text[1..]
    requires text[0] == '\n' || rest == []
    requires forall i :: 0 <= i < |rest| ==> IsLine(rest[i])
    requires forall i :: 0 <= i < |rest| - 1 ==> EndsInNewline(rest[i])
    ensures var r := [[text[0]]] + rest;
      && Concat(r) == text
      && (forall i :: 0 <= i < |r| ==> IsLine(r[i]))
      && (forall i :: 0 <= i < |r| - 1 ==> EndsInNewline(r[i]))
      && (EndsInNewline(r[|r| - 1]) <==> EndsInNewline(text))
  {
    var c := text[0];
    assert text == [c] + Concat(rest);
    var r := [[c]] + rest;
    assert [c][..0] == [];
    assert r[1..] == rest;
    if rest != [] {
      LastOfConcat(rest);
      assert r[|r| - 1] == rest[|rest| - 1];
    }
  }

  /** Any other character joins the line that follows it. */
  lemma {:induction false} ExtendLine(text: string, rest: seq<string>)
    requires text != [] && Concat(rest) == text[1..]
    requires text[0] != '\n' && rest != []
    requires forall i :: 0 <= i < |rest| ==> IsLine(rest[i])
    requires forall i :: 0 <= i < |rest| - 1 ==> EndsInNewline(rest[i])
    ensures var r := [[text[0]] + rest[0]] + rest[1..];
      && Concat(r) == text
      && (forall i :: 0 <= i < |r| ==> IsLine(r[i]))
      && (forall i :: 0 <= i < |r| - 1 ==> EndsInNewline(r[i]))
      && (EndsInNewline(r[|r| - 1]) <==> EndsInNewline(text))
  {
    var c := text[0];
    assert text == [c] + Concat(rest);
    ExtendLineConcat(c, rest);
    ExtendLineShape(c, rest);
    ExtendLineLast(c, rest);
  }

  lemma {:induction false} ExtendLineConcat(c: char, rest: seq<string>)
    requires rest != []
    ensures Concat([[c] + rest[0]] + rest[1..]) == [c] + Concat(rest)
  {
    var r := [[c] + rest[0]] + rest[1..];
    assert r[1..] == rest[1..];
    assert Concat(rest) == rest[0] + Concat(rest[1..]);
    ConcatAssociates([c], rest[0], Concat(rest[1..]));
  }

  lemma {:induction false} ExtendLineShape(c: char, rest: seq<string>)
    requires c != '\n' && rest != []
    requires forall i :: 0 <= i < |rest| ==> IsLine(rest[i])
    requires forall i :: 0 <= i < |rest| - 1 ==> EndsInNewline(rest[i])
    ensures var r := [[c] + rest[0]] + rest[1..];
      && (forall i :: 0 <= i < |r| ==> IsLine(r[i]))
      && (forall i :: 0 <= i < |r| - 1 ==> EndsInNewline(r[i]))
  {
    var first := [c] + rest[0];
    var r := [first] + rest[1..];
    assert IsLine(first) by {
      assert IsLine(rest[0]);
      assert first[..|first| - 1] == [c] + rest[0][..|rest[0]| - 1];
    }
    forall i | 1 <= i < |r| ensures r[i] == rest[i] {
    }
  }

  lemma {:induction false} ExtendLineLast(c: char, rest: seq<string>)
    requires rest != [] && forall i :: 0 <= i < |rest| ==> IsLine(rest[i])
    ensures var r := [[c] + rest[0]] + rest[1..];
      EndsInNewline(r[|r| - 1]) <==> EndsInNewline([c] + Concat(rest))
  {
    var r := [[c] + rest[0]] + rest[1..];
    var last := rest[|rest| - 1];
    assert IsLine(last);
    assert r[|r| - 1] != [] && r[|r| - 1][|r[|r| - 1]| - 1] == last[|last| - 1] by {
      if |rest| == 1 {
        assert r[|r| - 1] == [c] + rest[0];
      } else {
        assert r[|r| - 1] == last;
      }
    }
    assert EndsInNewline([c] + Concat(rest)) <==> last[|last| - 1] == '\n' by {
      LastOfConcat(rest);
      var t := [c] + Concat(rest);
      assert t[|t| - 1] == Concat(rest)[|Concat(rest)| - 1];
    }
  }

  /** The last character of the joined lines is the last line's last. */
  lemma {:induction false} LastOfConcat(lines: seq<string>)
    requires lines != [] && forall i :: 0 <= i < |lines| ==> lines[i] != []
    ensures Concat(lines) != [] && Concat(lines)[|Concat(lines)| - 1] == lines[|lines| - 1][|lines[|lines| - 1]| - 1]
    decreases |lines|
  {
    if |lines| > 1 {
      LastOfConcat(lines[1..]);
      assert lines[1..][|lines| - 2] == lines[|lines| - 1];
    } else {
      assert Concat(lines[1..]) == [];
      assert Concat(lines) == lines[0];
    }
  }

  /** One step of `readlines`, seen from the front of the text. */
  lemma {:induction false} ReadLinesCons(c: char, x: string)
    ensures var rest := ReadLines(x);
      ReadLines([c] + x) == if c == '\n' || rest == [] then [[c]] + rest else [[c] + rest[0]] + rest[1..]
  {
    assert ([c] + x)[1..] == x;
  }

  /** Appending whole lines to text that ends in a newline appends them to
      what `readlines` returns. */
  lemma {:induction false} ReadLinesAppend(a: string, b: string)
    requires a == [] || EndsInNewline(a)
    ensures ReadLines(a + b) == ReadLines(a) + ReadLines(b)
    decreases |a|
  {
    if a == [] {
      assert a + b == b;
      return;
    }
    var c, a' := a[0], a[1..];
    assert a == [c] + a' && a + b == [c] + (a' + b);
    ReadLinesCons(c, a');
    ReadLinesCons(c, a' + b);
    var rb := ReadLines(b);
    if a' == [] {
      assert c == '\n' by { assert a == [c]; }
      assert a' + b == b;
      return;
    }
    assert EndsInNewline(a') by { assert a'[|a'| - 1] == a[|a| - 1]; }
    ReadLinesAppend(a', b);
    var ra := ReadLines(a');
    assert ra != [];
    if c == '\n' {
      ConcatAssociates([[c]], ra, rb);
    } else {
      ConcatTail(ra, rb);
      ConcatAssociates([[c] + ra[0]], ra[1..], rb);
    }
  }

  lemma {:induction false} ConcatAssociates<T>(x: seq<T>, y: seq<T>, z: seq<T>)
    ensures x + (y + z) == (x + y) + z
  {
  }

  lemma {:induction false} ConcatTail<T>(x: seq<T>, y: seq<T>)
    requires x != []
    ensures (x + y)[0] == x[0] && (x + y)[1..] == x[1..] + y
  {
  }

  /** A string with a single newline, at its end, is one line. */
  lemma {:induction false} ReadOneLine(l: string)
    requires IsLine(l) && EndsInNewline(l)
    ensures ReadLines(l) == [l]
    decreases |l|
  {
    if |l| > 1 {
      var t := l[1..];
      assert t[..|t| - 1] == l[..|l| - 1][1..];
      ReadOneLine(t);
      assert l[0] != '\n' by { assert l[0] == l[..|l| - 1][0]; }
      assert ReadLines(l) == [[l[0]] + t];
      assert [l[0]] + t == l;
    } else {
      assert l == [l[0]];
    }
  }

  /** Appending one complete line to a text that ends in a newline adds that
      line, and nothing else, to what `readlines` returns. */
  lemma {:induction false} ReadLinesAppendLine(text: string, line: string)
    requires EndsInNewline(text) && IsLine(line) && EndsInNewline(line)
    ensures ReadLines(text + line) == ReadLines(text) + [line]
  {
    ReadOneLine(line);
    ReadLinesAppend(text, line);
  }
}

=== FILE: parser.dfy ===
/** The log parser: the first non-blank line names the vehicle, heading lines
    move a date cursor, and a mileage line (merged with at most one following
    line) becomes a record when it mentions an oil and filter change. */
module Parser {
  import opened Wrappers
  import opened Text
  import opened Calendar
  import opened Patterns
  import opened Lines

  /** One row of the table; every field is the text the log holds. */
  datatype Record = Record(mileage: string, date: string, oilType: string, filterType: string)

  /** The values the new-entry dialog starts from, taken from the last record. */
  datatype Summary = Summary(oilType: string, filterType: string, lastDate: string, lastMileage: string)

  /** A parsed log: vehicle identifier, records in line order, and summary. */
  datatype Log = Log(vehicle: string, records: seq<Record>, summary: Summary)

  /** The scan after a run of lines: records emitted so far and the date cursor. */
  datatype Scanned = Scanned(records: seq<Record>, date: string)

  /** What every record holds: a digit-string mileage, and a date that is
      the cursor's starting value or a heading line. */
  predicate WellFormed(r: Record, start: string) {
    IsNumeral(r.mileage) && (r.date == start || IsDateLine(r.date))
  }

  /** The stripped line after a mileage line is merged into its description
      unless it is a heading or another mileage line; a blank line is merged. */
  predicate Absorbs(next: string) {
    !IsDateLine(next) && MatchMileage(next).None?
  }

  /** The stripped line after line `j`, if there is one. */
  function FollowingLine(lines: seq<string>, j: nat): Option<string> {
    if j + 1 < |lines| then Some(Strip(lines[j + 1])) else None
  }

  function Merge(description: string, next: Option<string>): string {
    if next.Some? && Absorbs(next.value) then description + " " + next.value else description
  }

  /** The record a mileage line yields under date `date`, if its merged
      description names an oil and filter change. */
  function RecordOf(m: MileageMatch, next: Option<string>, date: string): Option<Record> {
    var full := Merge(m.description, next);
    if ContainsPhrase(full) then
      var oil := OilTypeOf(full);
      Some(Record(m.digits, date, oil, FilterTypeOf(full, oil)))
    else None
  }

  function Emitted(r: Option<Record>): seq<Record> {
    if r.Some? then [r.value] else []
  }

  /** The body loop: blank lines are skipped, a heading line replaces the
      cursor, and a mileage line swallows the following line when `Absorbs`
      allows, so that line is not scanned again. */
  function Scan(lines: seq<string>, date: string): (r: Scanned)
    decreases |lines|
  {
    if lines == [] then Scanned([], date)
    else
      var line := Strip(lines[0]);
      if line == [] then Scan(lines[1..], date)
      else if IsDateLine(line) then Scan(lines[1..], line)
      else
        match MatchMileage(line)
        case None => Scan(lines[1..], date)
        case Some(m) =>
          var next := FollowingLine(lines, 0);
          var tail := Scan(if next.Some? && Absorbs(next.value) then lines[2..] else lines[1..], date);
          Scanned(Emitted(RecordOf(m, next, date)) + tail.records, tail.date)
  }

  /** The most recent heading line among `lines`, or `date` if there is none. */
  function LastHeading(lines: seq<string>, date: string): string
    decreases |lines|
  {
    if lines == [] then date
    else if IsDateLine(Strip(lines[|lines| - 1])) then Strip(lines[|lines| - 1])
    else LastHeading(lines[..|lines| - 1], date)
  }

  /** The cursor after one more line: the stripped line if it is a heading. */
  function Cursor(line: string, date: string): string {
    if IsDateLine(Strip(line)) then Strip(line) else date
  }

  /** The record a stripped line yields on its own, given the line after it and
      the cursor above it: a mileage line, merged with the following line when
      that one is swallowed. */
  function LineRecord(line: string, next: Option<string>, date: string): Option<Record> {
    match MatchMileage(line)
    case None => None
    case Some(m) => RecordOf(m, next, date)
  }

  /** Line-by-line reference for the scan: every line is judged on its own, with
      nothing skipped, and the cursor moves past every heading line. */
  function Reference(lines: seq<string>, date: string): seq<Record>
    decreases |lines|
  {
    if lines == [] then []
    else Emitted(LineRecord(Strip(lines[0]), FollowingLine(lines, 0), date)) + Reference(lines[1..], Cursor(lines[0], date))
  }

  lemma {:induction false} LastHeadingConcat(p: seq<string>, q: seq<string>, date: string)
    ensures LastHeading(p + q, date) == LastHeading(q, LastHeading(p, date))
    decreases |q|
  {
    if q == [] {
      assert p + q == p;
    } else {
      assert (p + q)[..|p + q| - 1] == p + q[..|q| - 1];
      assert (p + q)[|p + q| - 1] == q[|q| - 1];
      LastHeadingConcat(p, q[..|q| - 1], date);
    }
  }

  /** The most recent heading is found by moving the cursor line by line. */
  lemma {:induction false} LastHeadingFirstLine(lines: seq<string>, date: string)
    requires lines != []
    ensures LastHeading(lines, date) == LastHeading(lines[1..], Cursor(lines[0], date))
  {
    assert lines == lines[..1] + lines[1..];
    LastHeadingConcat(lines[..1], lines[1..], date);
    assert lines[..1][..0] == [];
  }

  /** A line the lookahead swallows yields no record and leaves the cursor. */
  lemma {:induction false} AbsorbedLineInert(lines: seq<string>, date: string)
    requires lines != [] && Absorbs(Strip(lines[0]))
    ensures Reference(lines, date) == Reference(lines[1..], date)
    ensures LastHeading(lines, date) == LastHeading(lines[1..], date)
  {
    LastHeadingFirstLine(lines, date);
  }

  /** The cursor-and-skip state machine produces exactly the line-by-line
      records: one per mileage line whose merged description names an oil and
      filter change, in line order, dated by the most recent heading line above
      it. Skipping the swallowed line loses nothing, because a swallowed line is
      neither a heading nor a mileage line. */
  lemma {:induction false} ScanIsLineByLine(lines: seq<string>, date: string)
    ensures Scan(lines, date) == Scanned(Reference(lines, date), LastHeading(lines, date))
    decreases |lines|
  {
    if lines == [] {
      return;
    }
    var line := Strip(lines[0]);
    LastHeadingFirstLine(lines, date);
    var d1 := Cursor(lines[0], date);
    var next := FollowingLine(lines, 0);
    if MatchMileage(line).None? {
      assert LineRecord(line, next, date).None?;
      ScanIsLineByLine(lines[1..], d1);
      assert Scan(lines, date) == Scan(lines[1..], d1);
      return;
    }
    MileageLineIsNotDateLine(line);
    assert line != [] && d1 == date;
    var m := MatchMileage(line).value;
    var head := Emitted(RecordOf(m, next, date));
    assert Reference(lines, date) == head + Reference(lines[1..], date);
    if next.Some? && Absorbs(next.value) {
      AbsorbedLineInert(lines[1..], date);
      assert lines[1..][1..] == lines[2..];
      ScanIsLineByLine(lines[2..], date);
      var tail := Scan(lines[2..], date);
      assert Scan(lines, date) == Scanned(head + tail.records, tail.date);
    } else {
      ScanIsLineByLine(lines[1..], date);
      var tail := Scan(lines[1..], date);
      assert Scan(lines, date) == Scanned(head + tail.records, tail.date);
    }
  }

  /** The cursor only ever holds its starting value or a heading line. */
  lemma {:induction false} LastHeadingIsHeading(lines: seq<string>, date: string)
    ensures LastHeading(lines, date) == date || IsDateLine(LastHeading(lines, date))
    decreases |lines|
  {
    if lines != [] && !IsDateLine(Strip(lines[|lines| - 1])) {
      LastHeadingIsHeading(lines[..|lines| - 1], date);
    }
  }

  /** The record a single line yields is well formed. */
  lemma {:induction false} LineRecordWellFormed(line: string, next: Option<string>, date: string, start: string)
    requires date == start || IsDateLine(date)
    ensures AllWellFormed(Emitted(LineRecord(line, next, date)), start)
  {
  }

  predicate AllWellFormed(rs: seq<Record>, start: string) {
    forall k :: 0 <= k < |rs| ==> WellFormed(rs[k], start)
  }

  lemma {:induction false} AllWellFormedConcat(a: seq<Record>, b: seq<Record>, start: string)
    requires AllWellFormed(a, start) && AllWellFormed(b, start)
    ensures AllWellFormed(a + b, start)
  {
    forall k | 0 <= k < |a + b| ensures WellFormed((a + b)[k], start) {
      if k >= |a| {
        assert (a + b)[k] == b[k - |a|];
      } else {
        assert (a + b)[k] == a[k];
      }
    }
  }

  /** Every record's Mileage is a digit string and its Date is the starting
      cursor or a heading line. */
  lemma {:induction false} ReferenceWellFormed(lines: seq<string>, date: string, start: string)
    requires date == start || IsDateLine(date)
    ensures AllWellFormed(Reference(lines, date), start)
    decreases |lines|
  {
    if lines != [] {
      var head := Emitted(LineRecord(Strip(lines[0]), FollowingLine(lines, 0), date));
      LineRecordWellFormed(Strip(lines[0]), FollowingLine(lines, 0), date, start);
      ReferenceWellFormed(lines[1..], Cursor(lines[0], date), start);
      AllWellFormedConcat(head, Reference(lines[1..], Cursor(lines[0], date)), start);
    }
  }

  /** Index of the first line at or after `k` that is not blank once stripped. */
  function FirstNonBlank(lines: seq<string>, k: nat): (r: Option<nat>)
    requires k <= |lines|
    ensures r.Some? ==> k <= r.value < |lines| && Strip(lines[r.value]) != []
    ensures r.Some? ==> forall i :: k <= i < r.value ==> Strip(lines[i]) == []
    ensures r.None? ==> forall i :: k <= i < |lines| ==> Strip(lines[i]) == []
    decreases |lines| - k
  {
    if k == |lines| then None
    else if Strip(lines[k]) != [] then Some(k)
    else FirstNonBlank(lines, k + 1)
  }

  /** The summary the dialog reads: fields of the last record, or empty text
      and mileage "0" when there are no records. */
  function SummaryOf(records: seq<Record>): Summary {
    if records == [] then Summary("", "", "", "0")
    else
      var last := records[|records| - 1];
      Summary(last.oilType, last.filterType, last.date, last.mileage)
  }

  lemma {:induction false} ScannedWellFormed(lines: seq<string>)
    ensures AllWellFormed(Scan(lines, NA).records, NA)
  {
    ScanIsLineByLine(lines, NA);
    ReferenceWellFormed(lines, NA, NA);
  }

  lemma {:induction false} SummaryWellFormed(records: seq<Record>)
    requires AllWellFormed(records, NA)
    ensures IsNumeral(SummaryOf(records).lastMileage)
  {
    if records != [] {
      assert WellFormed(records[|records| - 1], NA);
    }
  }

  /** The whole parse: the vehicle line, then the scan of the lines after it
      with the cursor starting at NA. */
  function ParseLog(text: string): (r: Log)
    ensures IsNumeral(r.summary.lastMileage)
  {
    var lines := ReadLines(text);
    ParseLinesWellFormed(lines);
    ParseLines(lines)
  }

  /** The parse of the lines `readlines` returns. */
  function ParseLines(lines: seq<string>): Log {
    LogOf(VehicleOf(lines), Scan(AfterVehicle(lines), NA).records)
  }

  /** The first line that is not blank, stripped, or empty when there is none. */
  function VehicleOf(lines: seq<string>): string {
    match FirstNonBlank(lines, 0)
    case None => ""
    case Some(k) => Strip(lines[k])
  }

  /** The lines after the vehicle line; none when there is no vehicle line. */
  function AfterVehicle(lines: seq<string>): seq<string> {
    match FirstNonBlank(lines, 0)
    case None => []
    case Some(k) => lines[k + 1..]
  }

  /** A parse result: the vehicle, the records and their summary. */
  function LogOf(vehicle: string, records: seq<Record>): Log {
    Log(vehicle, records, SummaryOf(records))
  }

  /** Every parsed record has a digit-string mileage and a date that is NA or
      a heading line, so the summary's last mileage is a digit string. */
  lemma {:induction false} ParseLinesWellFormed(lines: seq<string>)
    ensures AllWellFormed(ParseLines(lines).records, NA)
    ensures IsNumeral(ParseLines(lines).summary.lastMileage)
  {
    match FirstNonBlank(lines, 0)
    case None =>
    case Some(k) =>
      var records := Scan(lines[k + 1..], NA).records;
      ParseLinesShape(lines, k);
      ScannedWellFormed(lines[k + 1..]);
      SummaryWellFormed(records);
  }

  /** The summary is that of the records. */
  lemma {:induction false} ParseLinesSummary(lines: seq<string>)
    ensures ParseLines(lines).summary == SummaryOf(ParseLines(lines).records)
  {
  }

  /** The summary after one more record is that record's fields. */
  lemma {:induction false} SummaryOfAppend(records: seq<Record>, r: Record)
    ensures SummaryOf(records + [r]) == Summary(r.oilType, r.filterType, r.date, r.mileage)
  {
  }

  /** A non-empty vehicle identifier comes from a non-blank line. */
  lemma {:induction false} ParseLinesVehicle(lines: seq<string>)
    requires ParseLines(lines).vehicle != []
    ensures FirstNonBlank(lines, 0).Some?
  {
  }

  /** The date cursor once the whole text is read: the most recent heading
      line after the vehicle line, or NA. A new entry is appended under it. */
  function FinalDate(text: string): string {
    FinalHeading(ReadLines(text))
  }

  function FinalHeading(lines: seq<string>): string {
    LastHeading(AfterVehicle(lines), NA)
  }

  /** The vehicle identifier is the first line that is not blank, stripped;
      that line is never read as a heading or a record, and the records are
      the line-by-line records of the lines after it. With no such line the
      identifier is empty and there are no records. */
  lemma {:induction false} ParseStructure(lines: seq<string>)
    ensures var r := ParseLines(lines);
      && (r.vehicle == [] <==> forall i :: 0 <= i < |lines| ==> Strip(lines[i]) == [])
      && (r.vehicle == [] ==> r.records == [])
      && (r.vehicle != [] ==>
            exists k :: && 0 <= k < |lines|
                        && (forall i :: 0 <= i < k ==> Strip(lines[i]) == [])
                        && r.vehicle == Strip(lines[k])
                        && r.records == Reference(lines[k + 1..], NA))
  {
    var body := AfterVehicle(lines);
    assert ParseLines(lines).vehicle == VehicleOf(lines);
    assert ParseLines(lines).records == Scan(body, NA).records;
    ScanIsLineByLine(body, NA);
    VehicleBlankIff(lines);
    if VehicleOf(lines) == [] {
      assert body == [];
    } else {
      VehicleFound(lines);
    }
  }

  /** The vehicle identifier is empty exactly when every line is blank. */
  lemma {:induction false} VehicleBlankIff(lines: seq<string>)
    ensures VehicleOf(lines) == [] <==> forall i :: 0 <= i < |lines| ==> Strip(lines[i]) == []
    ensures VehicleOf(lines) == [] ==> AfterVehicle(lines) == []
  {
  }

  /** A non-empty vehicle identifier is the first non-blank line, and the body
      is every line after it. */
  lemma {:induction false} VehicleFound(lines: seq<string>)
    requires VehicleOf(lines) != []
    ensures exists k :: && 0 <= k < |lines|
                        && (forall i :: 0 <= i < k ==> Strip(lines[i]) == [])
                        && VehicleOf(lines) == Strip(lines[k])
                        && AfterVehicle(lines) == lines[k + 1..]
  {
    var k := FirstNonBlank(lines, 0).value;
    assert && 0 <= k < |lines|
           && (forall i :: 0 <= i < k ==> Strip(lines[i]) == [])
           && VehicleOf(lines) == Strip(lines[k])
           && AfterVehicle(lines) == lines[k + 1..] by {
      VehicleSplit(lines, k);
    }
  }

  /** A line that is not swallowed contributes nothing to the record above it. */
  lemma {:induction false} KeptLineIgnored(line: string, next: string, date: string)
    requires !Absorbs(next)
    ensures LineRecord(line, Some(next), date) == LineRecord(line, None, date)
  {
    assert forall d :: Merge(d, Some(next)) == Merge(d, None);
  }

  /** The first line's record is unchanged by appending a mileage line. */
  lemma {:induction false} FirstRecordKept(p: seq<string>, line: string, date: string)
    requires p != [] && MatchMileage(Strip(line)).Some?
    ensures LineRecord(Strip((p + [line])[0]), FollowingLine(p + [line], 0), date)
            == LineRecord(Strip(p[0]), FollowingLine(p, 0), date)
  {
    var q := p + [line];
    assert q[0] == p[0] by { ConcatTail(p, [line]); }
    if |p| == 1 {
      assert FollowingLine(q, 0) == Some(Strip(line)) && FollowingLine(p, 0) == None by {
        assert q[1] == line;
      }
      KeptLineIgnored(Strip(p[0]), Strip(line), date);
    } else {
      assert FollowingLine(q, 0) == FollowingLine(p, 0) by {
        assert q[1] == p[1];
      }
    }
  }

  /** One step of the reference, stated without unfolding the records. */
  lemma {:induction false} ReferenceStep(lines: seq<string>, date: string)
    requires lines != []
    ensures Reference(lines, date)
            == Emitted(LineRecord(Strip(lines[0]), FollowingLine(lines, 0), date)) + Reference(lines[1..], Cursor(lines[0], date))
  {
  }

  lemma {:induction false} ReferenceSingle(line: string, date: string)
    ensures Reference([line], date) == Emitted(LineRecord(Strip(line), None, date))
  {
    ReferenceStep([line], date);
    assert [line][1..] == [];
  }

  /** Appending one mileage line appends at most the record it yields, dated by
      the last heading of the lines above it, and keeps every earlier record:
      the new line is never swallowed by the line above it. */
  lemma {:induction false} ReferenceAppend(p: seq<string>, line: string, date: string)
    requires MatchMileage(Strip(line)).Some?
    ensures Reference(p + [line], date) == Reference(p, date) + Emitted(LineRecord(Strip(line), None, LastHeading(p, date)))
    decreases |p|
  {
    var q := p + [line];
    if p == [] {
      ReferenceSingle(line, date);
      assert q == [line];
    } else {
      var d1 := Cursor(p[0], date);
      ConcatTail(p, [line]);
      ReferenceAppend(p[1..], line, d1);
      LastHeadingFirstLine(p, date);
      FirstRecordKept(p, line, date);
      ReferenceStep(p, date);
      ReferenceStep(q, date);
      var head := Emitted(LineRecord(Strip(p[0]), FollowingLine(p, 0), date));
      var last := Emitted(LineRecord(Strip(line), None, LastHeading(p, date)));
      ConcatAssociates(head, Reference(p[1..], d1), last);
    }
  }

  /** A line appended after the vehicle line does not move it. */
  lemma {:induction false} FirstNonBlankAppend(lines: seq<string>, line: string, k: nat)
    requires k <= |lines| && FirstNonBlank(lines, k).Some?
    ensures FirstNonBlank(lines + [line], k) == FirstNonBlank(lines, k)
    decreases |lines| - k
  {
    assert (lines + [line])[k] == lines[k];
    if Strip(lines[k]) == [] {
      FirstNonBlankAppend(lines, line, k + 1);
    }
  }

  /** The parse of lines that name a vehicle, in terms of the reference. */
  lemma {:induction false} ParseLinesByReference(lines: seq<string>, k: nat)
    requires FirstNonBlank(lines, 0) == Some(k)
    ensures ParseLines(lines).vehicle == Strip(lines[k])
    ensures ParseLines(lines).records == Reference(lines[k + 1..], NA)
  {
    ParseLinesParts(lines, k);
    ScanIsLineByLine(lines[k + 1..], NA);
  }

  lemma {:induction false} ParseLinesParts(lines: seq<string>, k: nat)
    requires FirstNonBlank(lines, 0) == Some(k)
    ensures ParseLines(lines).vehicle == Strip(lines[k])
    ensures ParseLines(lines).records == Scan(lines[k + 1..], NA).records
  {
    ParseLinesShape(lines, k);
  }

  lemma {:induction false} ParseLinesShape(lines: seq<string>, k: nat)
    requires FirstNonBlank(lines, 0) == Some(k)
    ensures ParseLines(lines) == LogOf(Strip(lines[k]), Scan(lines[k + 1..], NA).records)
  {
    VehicleSplit(lines, k);
  }

  lemma {:induction false} VehicleSplit(lines: seq<string>, k: nat)
    requires FirstNonBlank(lines, 0) == Some(k)
    ensures VehicleOf(lines) == Strip(lines[k]) && AfterVehicle(lines) == lines[k + 1..]
  {
  }

  /** The body loop's `current_date` once it has read every line after the
      vehicle line, starting from NA, is the final heading: the last heading
      line among them, or NA. */
  lemma {:induction false} FinalHeadingAfterVehicle(lines: seq<string>, k: nat)
    requires FirstNonBlank(lines, 0) == Some(k)
    ensures Scan(lines[k + 1..], NA).date == FinalHeading(lines)
    ensures FinalHeading(lines) == LastHeading(lines[k + 1..], NA)
  {
    VehicleSplit(lines, k);
    ScanIsLineByLine(lines[k + 1..], NA);
  }

  lemma {:induction false} SliceAppend<T>(s: seq<T>, x: T, k: nat)
    requires k <= |s|
    ensures (s + [x])[k..] == s[k..] + [x]
  {
  }

  /** Appending a mileage line to a log that names its vehicle keeps the
      vehicle and every record, and adds at most the record that line yields
      under the final cursor. */
  lemma {:induction false} ParseLinesAppend(lines: seq<string>, k: nat, line: string)
    requires FirstNonBlank(lines, 0) == Some(k) && MatchMileage(Strip(line)).Some?
    ensures ParseLines(lines + [line]).vehicle == ParseLines(lines).vehicle
    ensures ParseLines(lines + [line]).records
            == ParseLines(lines).records + Emitted(LineRecord(Strip(line), None, FinalHeading(lines)))
  {
    var q := lines + [line];
    var p := lines[k + 1..];
    FirstNonBlankAppend(lines, line, 0);
    assert FirstNonBlank(q, 0) == Some(k);
    assert q[k] == lines[k];
    SliceAppend(lines, line, k + 1);
    assert q[k + 1..] == p + [line];
    ParseLinesByReference(lines, k);
    ParseLinesByReference(q, k);
    FinalHeadingAfterVehicle(lines, k);
    ReferenceAppend(p, line, NA);
  }
}

=== FILE: patterns.dfy ===
/** The line and description patterns of the log format, written out as
    predicates and matchers over ASCII text: the mileage line, the
    "oil and filter change" phrase, the `(5W-20)` oil code, parenthesised
    groups and the filter-code test. */
module Patterns {
  import opened Wrappers
  import opened Text
  import Calendar

  /** What the log stores for a field it could not find. */
  const NA := "NA"

  /** The two groups of a mileage line: the odometer digits and the rest. */
  datatype MileageMatch = MileageMatch(digits: string, description: string)

  /** Index of the first non-digit at or after `i` (greedy `\d*`). */
  function DigitsEnd(s: string, i: nat): (r: nat)
    requires i <= |s|
    ensures i <= r <= |s|
    ensures r < |s| ==> !IsDigit(s[r])
    ensures forall k :: i <= k < r ==> IsDigit(s[k])
    decreases |s| - i
  {
    if i < |s| && IsDigit(s[i]) then DigitsEnd(s, i + 1) else i
  }

  /** The lower-case word `w` occurs at `i`, in any case. */
  predicate WordAt(s: string, i: nat, w: string) {
    i + |w| <= |s| && Lower(s[i..i + |w|]) == w
  }

  /** `^(\d+)\s*miles\s*:\s*(.*)$` with IGNORECASE on a line without a trailing
      newline. Every quantifier is greedy and followed by a character it cannot
      consume, so the first attempt is the match; `.` refuses a newline, so a
      description containing one does not match. */
  function MatchMileage(s: string): (r: Option<MileageMatch>)
    ensures r.Some? ==>
      var d := r.value.digits;
      && IsNumeral(d) && |d| <= |s| && d == s[..|d|] && (|d| < |s| ==> !IsDigit(s[|d|]))
    ensures r.Some? ==>
      var t := r.value.description;
      && |t| <= |s| && t == s[|s| - |t|..]
      && (t == [] || !IsSpace(t[0])) && '\n' !in t
  {
    var d := DigitsEnd(s, 0);
    if d == 0 then None
    else
      var a := SkipSpaces(s, d);
      if !WordAt(s, a, "miles") then None
      else
        var b := SkipSpaces(s, a + 5);
        if !(b < |s| && s[b] == ':') then None
        else
          var c := SkipSpaces(s, b + 1);
          if '\n' in s[c..] then None
          else Some(MileageMatch(s[..d], s[c..]))
  }

  /** The lower-case words `ws`, each preceded by optional whitespace
      (`\s*w1\s*w2...`, IGNORECASE), starting at `k`. */
  predicate WordsAfter(s: string, k: nat, ws: seq<string>)
    requires k <= |s|
    decreases |ws|
  {
    ws == [] ||
      var a := SkipSpaces(s, k);
      WordAt(s, a, ws[0]) && WordsAfter(s, a + |ws[0]|, ws[1..])
  }

  /** The words that follow "oil" in the phrase. */
  const PhraseWords: seq<string> := ["and", "filter", "change"]

  lemma {:induction false} PhraseWordsNonEmpty()
    ensures forall j :: 0 <= j < |PhraseWords| ==> PhraseWords[j] != []
  {
  }

  /** `oil\s*and\s*filter\s*change` (IGNORECASE) starting at `i`. */
  predicate PhraseAt(s: string, i: nat) {
    WordAt(s, i, "oil") && WordsAfter(s, i + 3, PhraseWords)
  }

  /** `re.search` of the oil-and-filter-change phrase. */
  predicate ContainsPhrase(s: string) {
    exists i :: 0 <= i <= |s| && PhraseAt(s, i)
  }

  /** A code `\dW-\d+`, the W in either case. */
  predicate IsOilCode(o: string) {
    |o| >= 4 && IsDigit(o[0]) && (o[1] == 'W' || o[1] == 'w') && o[2] == '-' && IsNumeral(o[3..])
  }

  /** `\((\dW-\d+)\)` (IGNORECASE) at `i`, giving the group. */
  function OilAt(s: string, i: nat): (r: Option<string>)
    ensures r.Some? ==>
      var o := r.value;
      && IsOilCode(o) && i + |o| + 2 <= |s|
      && s[i] == '(' && s[i + 1..i + 1 + |o|] == o && s[i + 1 + |o|] == ')'
  {
    if i + 4 <= |s| && s[i] == '(' && IsDigit(s[i + 1]) && (s[i + 2] == 'W' || s[i + 2] == 'w') && s[i + 3] == '-' then
      var e := DigitsEnd(s, i + 4);
      if e > i + 4 && e < |s| && s[e] == ')' then
        assert s[i + 1..e][3..] == s[i + 4..e];
        Some(s[i + 1..e])
      else None
    else None
  }

  /** The converse of `OilAt`'s contract: an oil code written between
      parentheses is matched there, and the group is exactly the code. */
  lemma {:induction false} OilAtCode(s: string, i: nat, o: string)
    requires IsOilCode(o) && i + |o| + 2 <= |s|
    requires s[i] == '(' && s[i + 1..i + 1 + |o|] == o && s[i + 1 + |o|] == ')'
    ensures OilAt(s, i) == Some(o)
  {
    assert s[i + 1] == o[0] && s[i + 2] == o[1] && s[i + 3] == o[2];
    forall k | i + 4 <= k < i + 1 + |o| ensures IsDigit(s[k]) {
      assert s[k] == o[3..][k - i - 4];
    }
    assert DigitsEnd(s, i + 4) == i + 1 + |o|;
  }

  /** Position of the leftmost `OilAt` match at or after `i` (`re.search`). */
  function FindOil(s: string, i: nat): (r: Option<nat>)
    requires i <= |s|
    ensures r.Some? ==> i <= r.value <= |s| && OilAt(s, r.value).Some?
    ensures r.Some? ==> forall j :: i <= j < r.value ==> OilAt(s, j).None?
    ensures r.None? ==> forall k :: i <= k <= |s| ==> OilAt(s, k).None?
    decreases |s| - i
  {
    if OilAt(s, i).Some? then Some(i)
    else if i == |s| then None
    else FindOil(s, i + 1)
  }

  /** Oil Type: the first parenthesised oil code of the description, or NA. */
  function OilTypeOf(s: string): (r: string)
    ensures r == NA <==> forall k :: 0 <= k <= |s| ==> OilAt(s, k).None?
    ensures r != NA ==> IsOilCode(r)
    ensures r != NA ==> exists k :: 0 <= k <= |s| && OilAt(s, k) == Some(r) && forall j :: 0 <= j < k ==> OilAt(s, j).None?
  {
    match FindOil(s, 0)
    case Some(k) =>
      var o := OilAt(s, k).value;
      assert o != NA by { assert IsOilCode(o); assert !IsDigit(NA[0]); }
      o
    case None => NA
  }

  /** An oil code in parentheses, with no parenthesis opened before it, is the
      oil type. */
  lemma {:induction false} OilTypeFirstCode(s: string, i: nat, o: string)
    requires IsOilCode(o) && i + |o| + 2 <= |s|
    requires s[i] == '(' && s[i + 1..i + 1 + |o|] == o && s[i + 1 + |o|] == ')'
    requires forall j :: 0 <= j < i ==> s[j] != '('
    ensures OilTypeOf(s) == o
  {
    OilAtCode(s, i, o);
    assert FindOil(s, 0) == Some(i);
  }

  /** An oil code holds no parenthesis. */
  lemma {:induction false} OilCodeParenFree(o: string)
    requires IsOilCode(o)
    ensures ParenFree(o)
  {
    forall k | 0 <= k < |o| ensures o[k] != '(' && o[k] != ')' {
      if k >= 3 { assert IsDigit(o[3..][k - 3]); }
    }
  }

  /** Index of the first parenthesis at or after `i`. */
  function ParenFreeEnd(s: string, i: nat): (r: nat)
    requires i <= |s|
    ensures i <= r <= |s|
    ensures r < |s| ==> s[r] == '(' || s[r] == ')'
    ensures forall k :: i <= k < r ==> s[k] != '(' && s[k] != ')'
    decreases |s| - i
  {
    if i < |s| && s[i] != '(' && s[i] != ')' then ParenFreeEnd(s, i + 1) else i
  }

  predicate ParenFree(g: string) {
    '(' !in g && ')' !in g
  }

  /** `\(([^()]+)\)` at `i`, giving the group. */
  function GroupAt(s: string, i: nat): (r: Option<string>)
    ensures r.Some? ==>
      var g := r.value;
      && g != [] && ParenFree(g) && i + |g| + 2 <= |s|
      && s[i] == '(' && s[i + 1..i + 1 + |g|] == g && s[i + 1 + |g|] == ')'
  {
    if i < |s| && s[i] == '(' then
      var e := ParenFreeEnd(s, i + 1);
      if e > i + 1 && e < |s| && s[e] == ')' then
        var g := s[i + 1..e];
        assert forall k :: 0 <= k < |g| ==> g[k] == s[i + 1 + k];
        Some(g)
      else None
    else None
  }

  /** `re.findall(r'\(([^()]+)\)', s[i..])`: the non-overlapping groups, left to right. */
  function ParenGroups(s: string, i: nat): seq<string>
    requires i <= |s|
    decreases |s| - i
  {
    if i == |s| then []
    else match GroupAt(s, i)
      case Some(g) => [g] + ParenGroups(s, i + |g| + 2)
      case None => ParenGroups(s, i + 1)
  }

  /** Every group found is non-empty and holds no parenthesis. */
  lemma {:induction false} ParenGroupsFree(s: string, i: nat)
    requires i <= |s|
    ensures forall k :: 0 <= k < |ParenGroups(s, i)| ==> ParenGroups(s, i)[k] != [] && ParenFree(ParenGroups(s, i)[k])
    decreases |s| - i
  {
    if i < |s| {
      match GroupAt(s, i)
      case Some(g) =>
        ParenGroupsFree(s, i + |g| + 2);
        var rest := ParenGroups(s, i + |g| + 2);
        assert ParenGroups(s, i) == [g] + rest;
        forall k | 0 <= k < |[g] + rest| ensures ([g] + rest)[k] != [] && ParenFree(([g] + rest)[k]) {
          if k > 0 { assert ([g] + rest)[k] == rest[k - 1]; }
        }
      case None =>
        ParenGroupsFree(s, i + 1);
    }
  }

  /** Text without an opening parenthesis contributes no group. */
  lemma {:induction false} ParenGroupsSkip(s: string, i: nat, j: nat)
    requires i <= j <= |s|
    requires forall k :: i <= k < j ==> s[k] != '('
    ensures ParenGroups(s, i) == ParenGroups(s, j)
    decreases j - i
  {
    if i < j {
      assert GroupAt(s, i).None?;
      assert ParenGroups(s, i) == ParenGroups(s, i + 1);
      ParenGroupsSkip(s, i + 1, j);
    }
  }

  /** The converse of `GroupAt`'s contract: a non-empty parenthesis-free text
      between parentheses is matched there as the group. */
  lemma {:induction false} GroupAtGroup(s: string, i: nat, g: string)
    requires g != [] && ParenFree(g) && i + |g| + 2 <= |s|
    requires s[i] == '(' && s[i + 1..i + 1 + |g|] == g && s[i + 1 + |g|] == ')'
    ensures GroupAt(s, i) == Some(g)
  {
    forall k | i + 1 <= k < i + 1 + |g| ensures s[k] != '(' && s[k] != ')' {
      assert s[k] == g[k - i - 1];
    }
    assert ParenFreeEnd(s, i + 1) == i + 1 + |g|;
  }
  /** A group at `i` is the next group, and the search resumes after it. */
  lemma {:induction false} ParenGroupsAt(s: string, i: nat, g: string)
    requires g != [] && ParenFree(g) && i + |g| + 2 <= |s|
    requires s[i] == '(' && s[i + 1..i + 1 + |g|] == g && s[i + 1 + |g|] == ')'
    ensures ParenGroups(s, i) == [g] + ParenGroups(s, i + |g| + 2)
  {
    GroupAtGroup(s, i, g);
  }
  /** After a stretch with no opening parenthesis, the next group is at `j`. */
  lemma {:induction false} SkipThenGroup(s: string, i: nat, j: nat, g: string)
    requires i <= j && g != [] && ParenFree(g) && j + |g| + 2 <= |s|
    requires forall k :: i <= k < j ==> s[k] != '('
    requires s[j] == '(' && s[j + 1..j + 1 + |g|] == g && s[j + 1 + |g|] == ')'
    ensures ParenGroups(s, i) == [g] + ParenGroups(s, j + |g| + 2)
  {
    ParenGroupsSkip(s, i, j);
    ParenGroupsAt(s, j, g);
  }

  /** The filter test `re.match(r'[A-Z]+[\dA-Z]+', c)`: since `[A-Z]+` may give
      back all but one letter, it holds exactly when `c` starts with an
      upper-case letter followed by an upper-case letter or a digit. */
  predicate IsFilterCode(c: string) {
    |c| >= 2 && IsUpper(c[0]) && (IsUpper(c[1]) || IsDigit(c[1]))
  }

  predicate AllUpper(s: string) {
    forall k :: 0 <= k < |s| ==> IsUpper(s[k])
  }

  predicate AllUpperOrDigit(s: string) {
    forall k :: 0 <= k < |s| ==> IsUpper(s[k]) || IsDigit(s[k])
  }

  /** The regular expression read literally: a non-empty run of upper-case
      letters, then a non-empty run of upper-case letters or digits, at the
      start of `c`. */
  predicate FilterRegexMatches(c: string) {
    exists i, j :: 1 <= i < j <= |c| && AllUpper(c[..i]) && AllUpperOrDigit(c[i..j])
  }

  /** The two-character test is the regular expression. */
  lemma {:induction false} FilterCodeIsRegex(c: string)
    ensures IsFilterCode(c) <==> FilterRegexMatches(c)
  {
    if IsFilterCode(c) {
      assert AllUpper(c[..1]) && AllUpperOrDigit(c[1..2]);
    }
    if FilterRegexMatches(c) {
      var i, j :| 1 <= i < j <= |c| && AllUpper(c[..i]) && AllUpperOrDigit(c[i..j]);
      assert IsUpper(c[..i][0]);
      if i == 1 {
        assert c[1] == c[i..j][0];
      } else {
        assert IsUpper(c[..i][1]);
      }
    }
  }

  /** A group the filter loop accepts: stripped, not the oil type (ignoring
      case), and passing the filter test. */
  predicate FilterCandidate(g: string, oil: string) {
    Lower(Strip(g)) != Lower(oil) && IsFilterCode(Strip(g))
  }

  /** Position of the first group at or after `k` that the filter loop accepts. */
  function FirstCandidate(groups: seq<string>, oil: string, k: nat): (r: Option<nat>)
    requires k <= |groups|
    ensures r.Some? ==> k <= r.value < |groups| && FilterCandidate(groups[r.value], oil)
    ensures forall j :: k <= j < (if r.Some? then r.value else |groups|) ==> !FilterCandidate(groups[j], oil)
    decreases |groups| - k
  {
    if k == |groups| then None
    else if FilterCandidate(groups[k], oil) then Some(k)
    else FirstCandidate(groups, oil, k + 1)
  }

  /** Filter Type: the first group accepted by the loop, stripped, or NA. */
  function SelectFilter(groups: seq<string>, oil: string): (r: string)
    ensures
      || (exists k :: 0 <= k < |groups| && FilterCandidate(groups[k], oil) && r == Strip(groups[k])
            && forall j :: 0 <= j < k ==> !FilterCandidate(groups[j], oil))
      || (r == NA && forall k :: 0 <= k < |groups| ==> !FilterCandidate(groups[k], oil))
  {
    match FirstCandidate(groups, oil, 0)
    case Some(k) => Strip(groups[k])
    case None => NA
  }

  /** With the oil code first and a stripped filter code second, the filter
      loop skips the oil code and returns the filter code. */
  lemma {:induction false} SelectFilterCodes(o: string, f: string)
    requires IsOilCode(o) && IsFilterCode(f) && IsStripped(f)
    ensures SelectFilter([o, f], o) == f
  {
    assert IsStripped(o) by { assert IsDigit(o[3..][|o| - 4]); }
    StripStripped(o);
    StripStripped(f);
    assert Lower(f) != Lower(o) by {
      assert Lower(f)[0] == LowerChar(f[0]) && Lower(o)[0] == LowerChar(o[0]);
    }
    var r := FirstCandidate([o, f], o, 0);
    assert r == Some(1) by {
      assert !FilterCandidate([o, f][0], o) && FilterCandidate([o, f][1], o);
    }
  }

  function FilterTypeOf(s: string, oil: string): string {
    SelectFilter(ParenGroups(s, 0), oil)
  }

  /** The text a mileage line carries before its description. */
  const MilesSeparator := " miles : "

  /** Formatting then matching a mileage line gives back its two groups. */
  lemma {:induction false} MileageLineRoundTrip(digits: string, description: string)
    requires IsNumeral(digits)
    requires description == [] || !IsSpace(description[0])
    requires '\n' !in description
    ensures MatchMileage(digits + MilesSeparator + description) == Some(MileageMatch(digits, description))
  {
    var s := digits + MilesSeparator + description;
    var n := |digits|;
    MileageLineLayout(digits, description);
    assert DigitsEnd(s, 0) == n;
    SkipOneSpace(s, n);
    assert WordAt(s, n + 1, "miles") by {
      assert Lower("miles") == "miles";
    }
    SkipOneSpace(s, n + 6);
    SkipOneSpace(s, n + 8);
  }

  /** Where the parts of a formatted mileage line sit. */
  lemma {:induction false} MileageLineLayout(digits: string, description: string)
    requires IsNumeral(digits)
    requires description == [] || !IsSpace(description[0])
    ensures var s := digits + MilesSeparator + description;
      var n := |digits|;
      && |s| == n + 9 + |description|
      && s[..n] == digits && s[n + 9..] == description
      && (forall k :: 0 <= k < n ==> IsDigit(s[k]))
      && s[n] == ' ' && s[n + 1..n + 6] == "miles" && s[n + 6] == ' ' && s[n + 7] == ':' && s[n + 8] == ' '
      && (n + 9 < |s| ==> !IsSpace(s[n + 9]))
  {
    var s := digits + MilesSeparator + description;
    var n := |digits|;
    assert forall k :: 0 <= k < n ==> s[k] == digits[k];
    assert s[n..n + 9] == MilesSeparator;
    if n + 9 < |s| {
      assert s[n + 9] == description[0];
    }
  }

  /** `DigitsEnd` stops at the first non-digit. */
  lemma {:induction false} DigitsEndAt(s: string, i: nat, j: nat)
    requires i <= j <= |s|
    requires forall k :: i <= k < j ==> IsDigit(s[k])
    requires j < |s| ==> !IsDigit(s[j])
    ensures DigitsEnd(s, i) == j
    decreases j - i
  {
    if i < j {
      DigitsEndAt(s, i + 1, j);
    }
  }

  /** `SkipSpaces` stops at the first non-whitespace character. */
  lemma {:induction false} SkipSpacesAt(s: string, i: nat, j: nat)
    requires i <= j <= |s|
    requires forall k :: i <= k < j ==> IsSpace(s[k])
    requires j < |s| ==> !IsSpace(s[j])
    ensures SkipSpaces(s, i) == j
    decreases j - i
  {
    if i < j {
      SkipSpacesAt(s, i + 1, j);
    }
  }

  /** A lower-case word written in any case starts with a letter, which is
      neither whitespace nor a digit. */
  lemma {:induction false} WordAtLetter(s: string, i: nat, w: string)
    requires WordAt(s, i, w) && w != [] && 'a' <= w[0] <= 'z'
    ensures i < |s| && !IsSpace(s[i]) && !IsDigit(s[i])
  {
    assert LowerChar(s[i]) == Lower(s[i..i + |w|])[0] == w[0];
  }

  /** What lies between the two groups of a mileage match: optional
      whitespace, "miles" in any case, optional whitespace, the colon and
      optional whitespace. With `MileageLineMatched` this is the whole of
      `\s*miles\s*:\s*`, in both directions. */
  lemma {:induction false} MileageMatchLayout(s: string)
    requires MatchMileage(s).Some?
    ensures var m := MatchMileage(s).value;
      exists a: nat, b: nat ::
        && |m.digits| <= a && a + 5 <= b && b + |m.description| < |s|
        && AllSpace(s[|m.digits|..a]) && WordAt(s, a, "miles")
        && AllSpace(s[a + 5..b]) && s[b] == ':'
        && AllSpace(s[b + 1..|s| - |m.description|])
  {
    var m := MatchMileage(s).value;
    var d := DigitsEnd(s, 0);
    var a := SkipSpaces(s, d);
    var b := SkipSpaces(s, a + 5);
    var c := SkipSpaces(s, b + 1);
    assert m == MileageMatch(s[..d], s[c..]);
    SpacesSlice(s, d, a);
    SpacesSlice(s, a + 5, b);
    SpacesSlice(s, b + 1, c);
    assert |s| - |m.description| == c;
  }

  /** A run of whitespace positions is an all-whitespace slice. */
  lemma {:induction false} SpacesSlice(s: string, i: nat, j: nat)
    requires i <= j <= |s| && forall k :: i <= k < j ==> IsSpace(s[k])
    ensures AllSpace(s[i..j])
  {
    forall k | 0 <= k < j - i ensures IsSpace(s[i..j][k]) {
      assert s[i..j][k] == s[i + k];
    }
  }

  /** The converse of `MatchMileage`'s contract: digits, optional whitespace,
      "miles" in any case, optional whitespace, a colon, optional whitespace
      and a one-line description that does not start with whitespace are
      matched, with the digits and the description as the groups. */
  lemma {:induction false} MileageLineMatched(digits: string, g1: string, miles: string, g2: string, g3: string, description: string)
    requires IsNumeral(digits) && Lower(miles) == "miles"
    requires AllSpace(g1) && AllSpace(g2) && AllSpace(g3)
    requires description == [] || !IsSpace(description[0])
    requires '\n' !in description
    ensures MatchMileage(digits + g1 + miles + g2 + ":" + g3 + description)
            == Some(MileageMatch(digits, description))
  {
    var s := digits + g1 + miles + g2 + ":" + g3 + description;
    var n := |digits|;
    var a := n + |g1|;
    var b := a + 5 + |g2|;
    var c := b + 1 + |g3|;
    MileageLayout(digits, g1, miles, g2, g3, description);
    MileageAt(s, n, a, b, c);
  }

  /** A mileage line read by positions: digits up to `n`, whitespace up to
      `a`, "miles" in any case, whitespace up to `b`, the colon, whitespace
      up to `c`, and a one-line rest that does not start with whitespace. */
  lemma {:induction false} MileageAt(s: string, n: nat, a: nat, b: nat, c: nat)
    requires 0 < n <= a && a + 5 <= b && b < c <= |s|
    requires forall k :: 0 <= k < n ==> IsDigit(s[k])
    requires forall k :: n <= k < a ==> IsSpace(s[k])
    requires WordAt(s, a, "miles")
    requires forall k :: a + 5 <= k < b ==> IsSpace(s[k])
    requires s[b] == ':'
    requires forall k :: b + 1 <= k < c ==> IsSpace(s[k])
    requires c < |s| ==> !IsSpace(s[c])
    requires '\n' !in s[c..]
    ensures MatchMileage(s) == Some(MileageMatch(s[..n], s[c..]))
  {
    assert DigitsEnd(s, 0) == n by {
      WordAtLetter(s, a, "miles");
      if n < a {
        assert IsSpace(s[n]);
      }
      DigitsEndAt(s, 0, n);
    }
    assert SkipSpaces(s, n) == a by {
      WordAtLetter(s, a, "miles");
      SkipSpacesAt(s, n, a);
    }
    assert SkipSpaces(s, a + 5) == b by {
      SkipSpacesAt(s, a + 5, b);
    }
    assert SkipSpaces(s, b + 1) == c by {
      SkipSpacesAt(s, b + 1, c);
    }
    MileageSteps(s, n, a, b, c);
  }

  /** The mileage pattern's steps, each landing where the next one starts. */
  lemma {:induction false} MileageSteps(s: string, n: nat, a: nat, b: nat, c: nat)
    requires 0 < n && DigitsEnd(s, 0) == n && SkipSpaces(s, n) == a
    requires WordAt(s, a, "miles") && SkipSpaces(s, a + 5) == b
    requires b < |s| && s[b] == ':' && SkipSpaces(s, b + 1) == c
    requires c <= |s| && '\n' !in s[c..]
    ensures MatchMileage(s) == Some(MileageMatch(s[..n], s[c..]))
  {
  }

  /** Where the parts of a mileage line sit, whatever its spacing. */
  lemma {:induction false} MileageLayout(digits: string, g1: string, miles: string, g2: string, g3: string, description: string)
    requires IsNumeral(digits) && Lower(miles) == "miles"
    requires AllSpace(g1) && AllSpace(g2) && AllSpace(g3)
    requires description == [] || !IsSpace(description[0])
    ensures var s := digits + g1 + miles + g2 + ":" + g3 + description;
      var n := |digits|;
      var a := n + |g1|;
      var b := a + 5 + |g2|;
      var c := b + 1 + |g3|;
      && |s| == c + |description|
      && s[..n] == digits && s[c..] == description
      && (forall k :: 0 <= k < n ==> IsDigit(s[k]))
      && (forall k :: n <= k < a ==> IsSpace(s[k]))
      && WordAt(s, a, "miles")
      && (forall k :: a + 5 <= k < b ==> IsSpace(s[k]))
      && s[b] == ':'
      && (forall k :: b + 1 <= k < c ==> IsSpace(s[k]))
      && (c < |s| ==> !IsSpace(s[c]))
  {
    var s := digits + g1 + miles + g2 + ":" + g3 + description;
    var n := |digits|;
    var a := n + |g1|;
    var b := a + 5 + |g2|;
    var c := b + 1 + |g3|;
    assert forall k :: 0 <= k < n ==> s[k] == digits[k];
    assert forall k :: n <= k < a ==> s[k] == g1[k - n];
    assert s[a..a + 5] == miles;
    assert forall k :: a + 5 <= k < b ==> s[k] == g2[k - a - 5];
    assert s[b] == ':';
    assert forall k :: b + 1 <= k < c ==> s[k] == g3[k - b - 1];
    assert s[c..] == description;
    if c < |s| {
      assert s[c] == description[0];
    }
  }

  /** A line cannot be both a mileage line and a date heading: one starts with
      a digit, the other with a month name. */
  lemma {:induction false} MileageLineIsNotDateLine(s: string)
    requires MatchMileage(s).Some?
    ensures !Calendar.IsDateLine(s)
  {
    Calendar.DateLineStartsUpper(s);
  }

  /** The converse of `ContainsPhrase`: "oil", "and", "filter" and "change",
      each in any case and separated by any run of whitespace (or none),
      are found wherever they stand in the text. */
  lemma {:induction false} PhraseMatched(s: string, i: nat, j1: nat, j2: nat, j3: nat)
    requires i + 3 <= j1 && j1 + 3 <= j2 && j2 + 6 <= j3 && j3 + 6 <= |s|
    requires WordAt(s, i, "oil") && WordAt(s, j1, "and") && WordAt(s, j2, "filter") && WordAt(s, j3, "change")
    requires AllSpace(s[i + 3..j1]) && AllSpace(s[j1 + 3..j2]) && AllSpace(s[j2 + 6..j3])
    ensures PhraseAt(s, i) && ContainsPhrase(s)
  {
    ThreeWordsAfter(s, i + 3, j1, j2, j3, "and", "filter", "change");
    PhraseFound(s, i, "and", "filter", "change");
  }

  lemma {:induction false} PhraseFound(s: string, i: nat, w1: string, w2: string, w3: string)
    requires i + 3 <= |s| && WordAt(s, i, "oil")
    requires [w1, w2, w3] == PhraseWords && WordsAfter(s, i + 3, [w1, w2, w3])
    ensures PhraseAt(s, i) && ContainsPhrase(s)
  {
    PhraseWordsAre(s, i + 3, w1, w2, w3);
    assert PhraseAt(s, i);
  }

  lemma {:induction false} PhraseWordsAre(s: string, k: nat, w1: string, w2: string, w3: string)
    requires k <= |s| && [w1, w2, w3] == PhraseWords && WordsAfter(s, k, [w1, w2, w3])
    ensures WordsAfter(s, k, PhraseWords)
  {
  }

  /** Three words, each after a run of whitespace, in any case. */
  lemma {:induction false} ThreeWordsAfter(s: string, k: nat, j1: nat, j2: nat, j3: nat, w1: string, w2: string, w3: string)
    requires w1 != [] && w2 != [] && w3 != []
    requires 'a' <= w1[0] <= 'z' && 'a' <= w2[0] <= 'z' && 'a' <= w3[0] <= 'z'
    requires k <= j1 && j1 + |w1| <= j2 && j2 + |w2| <= j3 && j3 + |w3| <= |s|
    requires WordAt(s, j1, w1) && WordAt(s, j2, w2) && WordAt(s, j3, w3)
    requires AllSpace(s[k..j1]) && AllSpace(s[j1 + |w1|..j2]) && AllSpace(s[j2 + |w2|..j3])
    ensures WordsAfter(s, k, [w1, w2, w3])
  {
    var rest := [w2, w3];
    assert WordsAfter(s, j1 + |w1|, rest) by {
      TwoWordsAfter(s, j1 + |w1|, j2, j3, w2, w3);
    }
    WordAfterGap(s, k, j1, w1, rest);
    assert [w1] + rest == [w1, w2, w3];
  }

  lemma {:induction false} TwoWordsAfter(s: string, k: nat, j2: nat, j3: nat, w2: string, w3: string)
    requires w2 != [] && w3 != []
    requires 'a' <= w2[0] <= 'z' && 'a' <= w3[0] <= 'z'
    requires k <= j2 && j2 + |w2| <= j3 && j3 + |w3| <= |s|
    requires WordAt(s, j2, w2) && WordAt(s, j3, w3)
    requires AllSpace(s[k..j2]) && AllSpace(s[j2 + |w2|..j3])
    ensures WordsAfter(s, k, [w2, w3])
  {
    assert WordsAfter(s, j2 + |w2|, [w3]) by {
      WordAfterGap(s, j2 + |w2|, j3, w3, []);
      assert [w3] + [] == [w3];
    }
    WordAfterGap(s, k, j2, w2, [w3]);
    assert [w2] + [w3] == [w2, w3];
  }

  /** One word of `WordsAfter` after a run of whitespace: the run ends where
      the word begins, since a word starts with a letter. */
  lemma {:induction false} WordAfterGap(s: string, k: nat, j: nat, w: string, rest: seq<string>)
    requires k <= j <= |s| && w != [] && 'a' <= w[0] <= 'z'
    requires AllSpace(s[k..j])
    requires WordAt(s, j, w) && WordsAfter(s, j + |w|, rest)
    ensures WordsAfter(s, k, [w] + rest)
  {
    assert forall t :: k <= t < j ==> IsSpace(s[t]) by {
      forall t | k <= t < j ensures IsSpace(s[t]) {
        assert s[k..j][t - k] == s[t];
      }
    }
    WordAtLetter(s, j, w);
    SkipSpacesAt(s, k, j);
    assert ([w] + rest)[0] == w && ([w] + rest)[1..] == rest;
  }

  /** The phrase found on a mileage line survives whatever the lookahead
      appends to it. */
  lemma {:induction false} PhraseKeptByAppend(s: string, t: string)
    requires ContainsPhrase(s)
    ensures ContainsPhrase(s + t)
  {
    var i :| 0 <= i <= |s| && PhraseAt(s, i);
    WordAtExtend(s, t, i, "oil");
    PhraseWordsNonEmpty();
    WordsAfterExtend(s, t, i + 3, PhraseWords);
    assert PhraseAt(s + t, i);
  }

  lemma {:induction false} WordsAfterExtend(s: string, t: string, k: nat, ws: seq<string>)
    requires k <= |s| && WordsAfter(s, k, ws)
    requires forall j :: 0 <= j < |ws| ==> ws[j] != []
    ensures WordsAfter(s + t, k, ws)
    decreases |ws|
  {
    if ws != [] {
      var a := SkipSpaces(s, k);
      WordAtExtend(s, t, a, ws[0]);
      SkipSpacesExtend(s, t, k);
      WordsAfterExtend(s, t, a + |ws[0]|, ws[1..]);
    }
  }

  lemma {:induction false} WordAtExtend(s: string, t: string, i: nat, w: string)
    requires WordAt(s, i, w)
    ensures WordAt(s + t, i, w)
  {
    assert (s + t)[i..i + |w|] == s[i..i + |w|];
  }

  lemma {:induction false} SkipSpacesExtend(s: string, t: string, i: nat)
    requires i <= |s| && SkipSpaces(s, i) < |s|
    ensures SkipSpaces(s + t, i) == SkipSpaces(s, i)
  {
    var r := SkipSpaces(s, i);
    var u := s + t;
    assert forall k :: i <= k <= r ==> u[k] == s[k];
  }
}

=== FILE: provenance.dfy ===
/** Where each parsed record comes from: the lines, judged one by one, each
    under the heading most recently above it, yield the records in line order. */
module Provenance {
  import opened Wrappers
  import opened Text
  import opened Parser

  /** The record line `j` yields under the heading most recently above it. */
  function RecordAt(lines: seq<string>, date: string, j: nat): Option<Record>
    requires j < |lines|
  {
    LineRecord(Strip(lines[j]), FollowingLine(lines, j), LastHeading(lines[..j], date))
  }

  /** What every line yields, by position. */
  function Yields(lines: seq<string>, date: string): (ys: seq<Option<Record>>)
    ensures |ys| == |lines|
  {
    seq(|lines|, j requires 0 <= j < |lines| => RecordAt(lines, date, j))
  }

  /** The present values of `ys`, in order. */
  function Somes(ys: seq<Option<Record>>): seq<Record>
    decreases |ys|
  {
    if ys == [] then [] else Emitted(ys[0]) + Somes(ys[1..])
  }

  /** A record is among the values exactly when some position holds it. */
  lemma {:induction false} SomesMembers(ys: seq<Option<Record>>, r: Record)
    ensures r in Somes(ys) <==> Some(r) in ys
    decreases |ys|
  {
    if ys != [] {
      SomesMembers(ys[1..], r);
      assert ys == [ys[0]] + ys[1..];
    }
  }

  lemma {:induction false} SomesCons(y: Option<Record>, ys: seq<Option<Record>>)
    ensures Somes([y] + ys) == Emitted(y) + Somes(ys)
  {
    assert ([y] + ys)[1..] == ys;
  }

  /** Line `j + 1` of `lines` is judged as line `j` of the lines after the first. */
  lemma {:induction false} RecordAtShift(lines: seq<string>, date: string, j: nat)
    requires j + 1 < |lines|
    ensures RecordAt(lines[1..], Cursor(lines[0], date), j) == RecordAt(lines, date, j + 1)
  {
    var t := lines[1..];
    var d1 := Cursor(lines[0], date);
    assert t[j] == lines[j + 1];
    assert FollowingLine(t, j) == FollowingLine(lines, j + 1) by {
      if j + 1 < |t| {
        assert t[j + 1] == lines[j + 2];
      }
    }
    assert LastHeading(t[..j], d1) == LastHeading(lines[..j + 1], date) by {
      var p := lines[..j + 1];
      LastHeadingFirstLine(p, date);
      assert p[0] == lines[0] && p[1..] == t[..j];
    }
    RecordAtCongruent(t, d1, j, lines, date, j + 1);
  }

  /** `RecordAt` depends only on the line, the line after it and the cursor. */
  lemma {:induction false} RecordAtCongruent(a: seq<string>, da: string, i: nat, b: seq<string>, db: string, j: nat)
    requires i < |a| && j < |b|
    requires a[i] == b[j] && FollowingLine(a, i) == FollowingLine(b, j)
    requires LastHeading(a[..i], da) == LastHeading(b[..j], db)
    ensures RecordAt(a, da, i) == RecordAt(b, db, j)
  {
  }

  lemma {:induction false} RecordAtFirst(lines: seq<string>, date: string)
    requires lines != []
    ensures RecordAt(lines, date, 0) == LineRecord(Strip(lines[0]), FollowingLine(lines, 0), date)
  {
    assert lines[..0] == [];
  }

  lemma {:induction false} ConsEquality<T>(s: seq<T>, x: T, t: seq<T>)
    requires |s| == |t| + 1 && s[0] == x
    requires forall j :: 0 <= j < |t| ==> t[j] == s[j + 1]
    ensures s == [x] + t
  {
  }

  lemma {:induction false} YieldsStep(lines: seq<string>, date: string)
    requires lines != []
    ensures Yields(lines, date)
            == [LineRecord(Strip(lines[0]), FollowingLine(lines, 0), date)] + Yields(lines[1..], Cursor(lines[0], date))
  {
    var d1 := Cursor(lines[0], date);
    var ys := Yields(lines, date);
    var t := Yields(lines[1..], d1);
    var y0 := LineRecord(Strip(lines[0]), FollowingLine(lines, 0), date);
    assert ys[0] == y0 by {
      RecordAtFirst(lines, date);
    }
    forall j | 0 <= j < |t| ensures t[j] == ys[j + 1] {
      YieldsShift(lines, date, j);
    }
    ConsEquality(ys, y0, t);
  }

  lemma {:induction false} YieldsShift(lines: seq<string>, date: string, j: nat)
    requires j + 1 < |lines|
    ensures Yields(lines[1..], Cursor(lines[0], date))[j] == Yields(lines, date)[j + 1]
  {
    var t := lines[1..];
    var d1 := Cursor(lines[0], date);
    assert Yields(t, d1)[j] == RecordAt(t, d1, j);
    assert Yields(lines, date)[j + 1] == RecordAt(lines, date, j + 1);
    RecordAtShift(lines, date, j);
  }

  /** The records of the reference, and so of the scan, are the records the
      lines yield one by one, in line order, each dated by the most recent
      heading line above it. */
  lemma {:induction false} ReferenceIsYields(lines: seq<string>, date: string)
    ensures Reference(lines, date) == Somes(Yields(lines, date))
    decreases |lines|
  {
    if lines != [] {
      ReferenceIsYields(lines[1..], Cursor(lines[0], date));
      YieldsStep(lines, date);
      SomesCons(LineRecord(Strip(lines[0]), FollowingLine(lines, 0), date), Yields(lines[1..], Cursor(lines[0], date)));
    }
  }

  /** The parsed records are what the lines after the vehicle line `k` yield
      one by one, in line order, the cursor starting at NA. */
  lemma {:induction false} ParsedRecordsAreYields(lines: seq<string>, k: nat)
    requires FirstNonBlank(lines, 0) == Some(k)
    ensures ParseLines(lines).records == Somes(Yields(lines[k + 1..], Patterns.NA))
  {
    ParseLinesByReference(lines, k);
    ReferenceIsYields(lines[k + 1..], Patterns.NA);
  }

  /** A record is parsed exactly when some line after the vehicle line `k`
      yields it under the heading most recently above that line. */
  lemma {:induction false} ParsedRecordMembers(lines: seq<string>, k: nat, r: Record)
    requires FirstNonBlank(lines, 0) == Some(k)
    ensures r in ParseLines(lines).records <==> Some(r) in Yields(lines[k + 1..], Patterns.NA)
  {
    ParsedRecordsAreYields(lines, k);
    SomesMembers(Yields(lines[k + 1..], Patterns.NA), r);
  }
}

=== FILE: text.dfy ===
/** Character classes and string helpers with the meaning Python gives them on
    ASCII text: `str.isspace`/`strip()`, the `\s` and `\d` classes of `re`, and
    `str.lower()`. */
module Text {

  /** Python whitespace restricted to ASCII: space, tab, LF, VT, FF, CR and the
      four separators 0x1C-0x1F. This is what `strip()` removes and `\s` matches. */
  predicate IsSpace(c: char) {
    c == ' ' || (9 <= c as int <= 13) || (28 <= c as int <= 31)
  }

  predicate IsDigit(c: char) {
    '0' <= c <= '9'
  }

  predicate IsUpper(c: char) {
    'A' <= c <= 'Z'
  }

  predicate AllSpace(s: string) {
    forall i :: 0 <= i < |s| ==> IsSpace(s[i])
  }

  predicate AllDigits(s: string) {
    forall i :: 0 <= i < |s| ==> IsDigit(s[i])
  }

  /** A string `str.isdigit()` accepts (and `int()` then converts). */
  predicate IsNumeral(s: string) {
    |s| > 0 && AllDigits(s)
  }

  function DigitValue(c: char): nat
    requires IsDigit(c)
  {
    c as int - '0' as int
  }

  /** The value `int()` gives a string of decimal digits. */
  function NumeralValue(s: string): nat
    requires AllDigits(s)
  {
    if |s| == 0 then 0 else 10 * NumeralValue(s[..|s| - 1]) + DigitValue(s[|s| - 1])
  }

  function LowerChar(c: char): char {
    if IsUpper(c) then (c as int + 32) as char else c
  }

  /** `str.lower()` on ASCII letters; every other character is kept. */
  function Lower(s: string): (r: string)
    ensures |r| == |s|
    ensures forall i :: 0 <= i < |s| ==> r[i] == LowerChar(s[i])
  {
    seq(|s|, i requires 0 <= i < |s| => LowerChar(s[i]))
  }

  /** What `lower()` does to a string: no upper-case letter is left, exactly
      the upper-case letters change, so a string without one is its own
      lower-case form and lower-casing twice is lower-casing once. */
  lemma {:induction false} LowerIsLowerCase(s: string)
    ensures forall i :: 0 <= i < |s| ==> !IsUpper(Lower(s)[i])
    ensures forall i :: 0 <= i < |s| ==> (Lower(s)[i] == s[i] <==> !IsUpper(s[i]))
    ensures Lower(s) == s <==> forall i :: 0 <= i < |s| ==> !IsUpper(s[i])
    ensures Lower(Lower(s)) == Lower(s)
  {
  }

  /** A string that `strip()` leaves alone. */
  predicate IsStripped(s: string) {
    s == [] || (!IsSpace(s[0]) && !IsSpace(s[|s| - 1]))
  }

  /** Index of the first non-whitespace character at or after `i` (greedy `\s*`). */
  function SkipSpaces(s: string, i: nat): (r: nat)
    requires i <= |s|
    ensures i <= r <= |s|
    ensures r < |s| ==> !IsSpace(s[r])
    ensures forall k :: i <= k < r ==> IsSpace(s[k])
    decreases |s| - i
  {
    if i < |s| && IsSpace(s[i]) then SkipSpaces(s, i + 1) else i
  }

  /** A single whitespace character before a non-whitespace one, or before
      the end, is skipped alone. */
  lemma {:induction false} SkipOneSpace(s: string, i: nat)
    requires i < |s| && IsSpace(s[i]) && (i + 1 == |s| || !IsSpace(s[i + 1]))
    ensures SkipSpaces(s, i) == i + 1
  {
  }

  /** Start of the run of whitespace that ends at `j`, not looking before `lo`. */
  function SpaceRunStart(s: string, lo: nat, j: nat): (r: nat)
    requires lo <= j <= |s|
    ensures lo <= r <= j
    ensures r > lo ==> !IsSpace(s[r - 1])
    ensures forall k :: r <= k < j ==> IsSpace(s[k])
    decreases j
  {
    if j > lo && IsSpace(s[j - 1]) then SpaceRunStart(s, lo, j - 1) else j
  }

  /** Python's `strip()`: the infix left after removing leading and trailing
      whitespace. */
  function Strip(s: string): (r: string)
    ensures IsStripped(r)
  {
    var i := SkipSpaces(s, 0);
    var j := SpaceRunStart(s, i, |s|);
    assert i < j ==> s[i..j][0] == s[i] && s[i..j][j - i - 1] == s[j - 1];
    s[i..j]
  }

  /** What `strip()` removes is whitespace, from both ends only. */
  lemma {:induction false} StripInfix(s: string)
    ensures exists i, j :: 0 <= i <= j <= |s| && Strip(s) == s[i..j] && AllSpace(s[..i]) && AllSpace(s[j..])
  {
    var i := SkipSpaces(s, 0);
    var j := SpaceRunStart(s, i, |s|);
    assert AllSpace(s[..i]) by {
      forall k | 0 <= k < i ensures IsSpace(s[..i][k]) { assert s[..i][k] == s[k]; }
    }
    assert AllSpace(s[j..]) by {
      forall k | 0 <= k < |s| - j ensures IsSpace(s[j..][k]) { assert s[j..][k] == s[j + k]; }
    }
  }

  /** A string is blank (`not line.strip()`) exactly when it is all whitespace. */
  lemma {:induction false} StripEmptyIffAllSpace(s: string)
    ensures Strip(s) == [] <==> AllSpace(s)
  {
    var i := SkipSpaces(s, 0);
    var j := SpaceRunStart(s, i, |s|);
    assert Strip(s) == s[i..j];
    if Strip(s) == [] {
      assert i == j;
    }
  }

  /** `strip()` is the identity on a string with no whitespace at either end. */
  lemma {:induction false} StripStripped(s: string)
    requires IsStripped(s)
    ensures Strip(s) == s
  {
    if s != [] {
      assert SkipSpaces(s, 0) == 0;
      assert SpaceRunStart(s, 0, |s|) == |s|;
      assert s[0..|s|] == s;
    }
  }

  /** A trailing newline is whitespace that `strip()` removes. */
  lemma {:induction false} StripFinalNewline(s: string)
    requires s != [] && IsStripped(s)
    ensures Strip(s + "\n") == s
  {
    var t := s + "\n";
    assert SkipSpaces(t, 0) == 0 by { assert t[0] == s[0]; }
    assert SpaceRunStart(t, 0, |t|) == |s| by {
      assert t[|s| - 1] == s[|s| - 1];
      assert SpaceRunStart(t, 0, |s|) == |s|;
    }
    assert t[0..|s|] == s;
  }
}

=== FILE: wrappers.dfy ===
/** Option and Result values used throughout the model. */
module Wrappers {

  /** A value that may be absent. */
  datatype Option<+T> = None | Some(value: T)

  /** Either a successful value or an error. */
  datatype Result<+R, +E> = Success(value: R) | Failure(error: E)
}
